=== FILE: README.md ===
# express-jobly core, modelled in Dafny

This project models the request-handling core of express-jobly, a job board
API, and proves properties of that model. It covers five parts:

- the partial-update SQL builder `sqlForPartialUpdate`;
- the `Job` repository: `search`, `findAll`, `create`, `get`, `update` and `remove`;
- the `Company` repository: the same six operations;
- the query-string guard `authenticateQuery`;
- the auth middleware: the bearer-token handling of `authenticateJWT`, `ensureLoggedIn`, `checkAdmin` and `checkAdminOrCorrectUser`.

JavaScript values are a small `Value` datatype: null, booleans, integers and
strings. A JS object is a sequence of `(key, value)` entries in iteration
order, and a missing key reads as `None` (`undefined`). The JS semantics the
code relies on are written out explicitly:

- truthiness;
- `Number()` on strings;
- `isNaN`;
- loose `== true` and `== false`;
- `trim` with the JavaScript white-space set;
- `Array.prototype.join`.

The database is modelled as a map from key to row, where a row maps column
names to values. The keyed `UPDATE … SET … WHERE key = $n` statement that both
repositories send is run by a small interpreter. It binds the parameters by
position, so the placeholder arithmetic of the source (`$(values.length + 1)`)
is checked against what the statement actually changes. A job id bound to the
`integer` id column is read as PostgreSQL reads integer input: ASCII white
space is trimmed, the text must be a signed decimal numeral, and the value must
lie in the 32-bit range -2147483648..2147483647.

Modules, one per file:

- `Results` (results.dfy): Option, Result, the error kinds, the middleware outcome (`next()` or a throw).
- `Decimal` (decimal.dfy): decimal numerals, used for `$n` placeholders and for reading ids.
- `JsValues` (jsvalues.dfy): JS values and objects, truthiness, `Number()`, `trim`, `join`.
- `SqlHelpers` (sql.dfy): `sqlForPartialUpdate`.
- `Filters` (filters.dfy): WHERE conditions, their rendering, and the placeholder/value alignment predicates shared by both searches.
- `Rows` (rows.dfy): stored rows and the keyed UPDATE interpreter.
- `JobModel` (job.dfy) and `CompanyModel` (company.dfy): the two repositories.
- `QueryMiddleware` (query.dfy) and `AuthMiddleware` (auth.dfy): the middleware.

## Model

| member | source | states |
|---|---|---|
| SqlHelpers.SqlForPartialUpdate | helpers/sql.js:21-36 | An object with no keys is rejected with BadRequest "No data", and only such an object is. Otherwise the i-th key gives the assignment `"column"=$(i+1)`. The column is `jsToSql[key]`, falling back to the key when that is missing or empty. The i-th bound value is the i-th field's value, and `setCols` is the assignments joined with `", "`. |
| SqlHelpers.PartialUpdateAligned | helpers/sql.js:22-33 | For an object with distinct keys, every `$n` lies between 1 and the number of values, and no two assignments share a placeholder. The value bound to `$n` is the value of the very field whose column the assignment names. |
| SqlHelpers.PositionalListAligned | helpers/sql.js:26-33 | Any SET list numbered by field position and bound to the field values in order satisfies that alignment. |
| SqlHelpers.EmptyUpdateRejected | helpers/sql.js:22-23 | An empty update is rejected whatever the column mapping is. |
| SqlHelpers.UnusedMappingIrrelevant | helpers/sql.js:26-28 | Two column mappings that agree on the object's keys give identical results. |
| SqlHelpers.RenderedPlaceholder | helpers/sql.js:27 | A rendered assignment ends in `=$n`, and its numeral reads back as n. |
| SqlHelpers.PartialUpdateExample | helpers/sql.js:8-15 | The documented example: `{firstName, email}` with the firstName mapping gives `"first_name"=$1, "email"=$2` and the two values in order. |
| SqlHelpers.NullPassesThrough | helpers/sql.js:33 | A null field value is bound as null. |
| JsValues.Truthy | middleware/auth.js:38 | The falsy values are exactly "", 0, false and null. |
| JsValues.StringToNumber | middleware/query.js:11-12 | Blank text reads as 0. A negative result needs a leading minus sign. |
| JsValues.LooseEqualsBool | middleware/auth.js:49 | A value loosely equals a boolean only when it is present, not null, and its number is 1 for true or 0 for false. |
| JsValues.Trim | middleware/auth.js:21 | `trim()` yields a contiguous slice of its input that neither starts nor ends with white space. |
| JsValues.TrimRemovesOnlyWhitespace | middleware/auth.js:21 | Everything `trim()` removes, before and after the kept slice, is white space. |
| JsValues.TrimStartDropsWhitespace | middleware/auth.js:21 | Every character dropped from the front is white space. |
| JsValues.TrimEndDropsWhitespace | middleware/auth.js:21 | Every character dropped from the back is white space. |
| JsValues.TrimIdempotent | middleware/auth.js:21 | Trimming twice is trimming once. |
| JsValues.StringToNumberOfNat | middleware/query.js:11-12 | `Number()` of a decimal numeral is its value. This holds in JavaScript for n ≤ 2^53 only. |
| JsValues.ToNumber | middleware/query.js:11-12 | `Number(undefined)` is NaN. Only `undefined` and strings can give NaN: null, booleans and integers always read as numbers. |
| JsValues.IsNaN | models/job.js:111 | `isNaN` never holds for blank text, which reads as 0, nor for a run of decimal digits. |
| JsValues.DigitsAreNumbers | models/job.js:111 | A non-empty run of decimal digits reads as a number. |
| JsValues.WordIsNaN | middleware/query.js:23 | Text that starts with neither white space, a sign, a digit, a point nor `I` reads as NaN in this model. |
| JsValues.NumberIgnoresSurroundingSpace | middleware/query.js:11-12 | `Number()` reads a string and its trimmed form as the same number. |
| JsValues.SignedNumeral | middleware/query.js:11-12 | `Number()` of `-n` and `+n` is the signed value of the numeral n. This holds in JavaScript for n ≤ 2^53 only. |
| JsValues.TruthinessAgreesWithNumber | middleware/query.js:29 | For every value except a string, truthiness agrees with the truthiness of its number. The string "0" is truthy while its number is not. |
| JsValues.LooseEqualsIsNumeric | middleware/auth.js:49 | A present, non-null value loosely equals a boolean exactly when its number is 1 for true or 0 for false. `undefined` and `null` equal neither, and no value equals both. |
| Filters.NonBlankEmpty | models/job.js:97 | Dropping blank conditions leaves nothing exactly when every condition was blank. |
| Filters.RenderEmpty | models/job.js:97 | A condition renders as the empty string exactly when it is the blank one. So filtering out blank conditions is the source's filter on `clause !== ""`. Company conditions are never blank (models/company.js:111). |
| Filters.JoinAnd | models/company.js:111 | Joining non-blank conditions with `" AND "` yields the empty string exactly when there are no conditions. |
| Filters.WherePart | models/job.js:48 | The WHERE prefix is added exactly when the condition text is non-empty. |
| Filters.SlotsNonBlank | models/job.js:97 | Dropping the blank conditions keeps every placeholder, in order. |
| Filters.ContiguousExtend | models/job.js:86-94 | Appending `$(n+1)` to the placeholders $1..$n gives $1..$(n+1). A condition without a placeholder leaves $1..$n unchanged. |
| JobModel.SearchObj | models/job.js:80-100 | The condition text is empty exactly when every collected condition is blank. |
| JobModel.Search | models/job.js:72-101 | A missing filter is not searched, and only a missing one. A present filter binds the value of every key except `hasEquity`, in order. |
| JobModel.JobSearchValues | models/job.js:85-95 | `filterValues` holds the value of every key except `hasEquity`, in the object's order. Unrecognised keys are included. |
| JobModel.JobSearchAligned | models/job.js:80-100 | For distinct keys, every condition's `$k` lies between 1 and the number of filter values, the placeholders increase, and `$k` binds the value of that condition's own key. When all keys are title, minSalary or hasEquity, the emitted placeholders are exactly $1..$n. |
| JobModel.ScanAligned | models/job.js:85-95 | The loop invariant behind the alignment, proved by induction over the loop's turns. |
| JobModel.ScanContiguous | models/job.js:85-95 | On recognised keys, each turn of the loop keeps the placeholders $1..$n for n pushed values. |
| JobModel.JobSearchEquity | models/job.js:82-97 | `equity IS NOT NULL` is among the emitted conditions exactly when `hasEquity` is truthy. The only condition without a placeholder is the `hasEquity` one. |
| JobModel.ScanEquity | models/job.js:82-94 | The loop pushes the equity condition exactly when it meets a `hasEquity` key. |
| JobModel.NonBlankKeeps | models/job.js:97 | The blank filter keeps exactly the non-blank conditions it was given. |
| JobModel.JobSearchNoFilter | models/job.js:82-100 | An empty filter, or a false `hasEquity` alone, gives no condition text and no values. |
| JobModel.JobSearchEquityOnly | models/job.js:82-100 | A true `hasEquity` alone gives exactly `equity IS NOT NULL` and binds nothing. |
| JobModel.FindAll | models/job.js:44-64 | An undefined filter skips the search. Otherwise there is a WHERE clause exactly when the search emitted a condition, and the search's values are bound. |
| JobModel.Create | models/job.js:20-37 | On a well-formed table whose next id is at most 2147483647, the insert succeeds under that id. Past that maximum the id sequence fails. The result reports the supplied fields with the new id and leaves every other row unchanged. |
| JobModel.Get | models/job.js:110-132 | The id is modelled as its decimal text, as a route parameter carries it. A NaN id is a BadRequest, raised before the table is read. An id the `integer` column cannot read is a database error. An id that reads as a stored key returns that row. A readable id with no row is NotFound "No job: <id>". |
| JobModel.Update | models/job.js:146-172 | The id is modelled as its decimal text. A NaN id is a BadRequest. An empty update is BadRequest "No data". On success the id sequence and the set of ids are unchanged. |
| JobModel.Remove | models/job.js:179-195 | The id is modelled as its decimal text. A NaN id is a BadRequest. An id the `integer` column cannot read is a database error. An id that reads as a stored key deletes exactly that row. A readable id with no row is NotFound. |
| JobModel.NaNIdRejectedBeforeStore | models/job.js:111-113 | For a NaN id, `get`, `update` and `remove` give the same BadRequest whatever the table holds. |
| JobModel.NumeralId | models/job.js:111-125 | An id written as a numeral passes the guard. The id column reads it back as that id when it is at most 2147483647, and rejects it otherwise. |
| JobModel.CreateThenGet | models/job.js:20-37 | Fetching a freshly created job returns what `create` reported. |
| JobModel.RemoveThenGet | models/job.js:179-195 | After `remove`, `get` of the same id is NotFound. |
| JobModel.UpdateMissingIsNotFound | models/job.js:166-169 | Updating an id with no row is NotFound "No job with id <id>". |
| JobModel.UpdateEffect | models/job.js:151-171 | A successful update rewrites only the row under the id. Each supplied field's column takes its value, and every other column and every other row is untouched. The returned JSON is the new row. |
| JobModel.CreatePreservesValidStore | models/job.js:20-37 | `create` keeps every row on the table's columns and every id below the sequence. |
| JobModel.RemovePreservesValidStore | models/job.js:179-195 | `remove` keeps the table well formed. |
| JobModel.UpdatePreservesValidStore | models/job.js:146-172 | `update` keeps the table well formed. |
| CompanyModel.SearchObj | models/company.js:97-113 | One value is bound per key. The condition text is empty exactly when no key is nameLike, minEmployees or maxEmployees. |
| CompanyModel.NoConditionsWithoutFilterKeys | models/company.js:100-109 | The loop emits no condition exactly when none of the keys it has seen is a filter key. |
| CompanyModel.Search | models/company.js:89-114 | A missing filter is not searched, and only a missing one. A present filter binds the value of every key, in order. |
| CompanyModel.CompanySearchValues | models/company.js:100-109 | `filterValues` holds the value of every key, unrecognised ones included, in the object's order. |
| CompanyModel.CompanySearchAligned | models/company.js:97-113 | For distinct keys, every `$k` lies between 1 and the number of filter values, the placeholders increase, and `$k` binds the value of its own key. On recognised keys there is one condition per key, numbered $1..$n. |
| CompanyModel.ScanAligned | models/company.js:100-109 | The loop invariant behind the alignment, by induction over the loop's turns. |
| CompanyModel.ScanContiguous | models/company.js:100-109 | On recognised keys, each turn adds one condition and keeps the placeholders $1..$i. |
| CompanyModel.UnknownKeyShiftsPlaceholders | models/company.js:100-108 | An unrecognised key still takes a value slot, so a following `nameLike` is numbered `$2`. |
| CompanyModel.CompanySearchExample | models/company.js:97-113 | `{nameLike: "1", minEmployees: 1}` gives the name ILIKE condition on `$1`, then ` AND num_employees >= $2`, bound to `["1", 1]`. |
| CompanyModel.FindAll | models/company.js:58-81 | An undefined filter skips the search. Otherwise there is a WHERE clause exactly when the search emitted a condition, and the search's values are bound. |
| CompanyModel.Create | models/company.js:20-51 | A taken handle, and only a taken handle, is BadRequest "Duplicate company: <handle>". Otherwise the company is inserted and reported. |
| CompanyModel.Get | models/company.js:124-142 | A handle with a row returns it. Otherwise the result is NotFound "No company: <handle>". |
| CompanyModel.Update | models/company.js:156-179 | An empty update is BadRequest "No data". Success needs the handle to exist and leaves the set of handles unchanged. |
| CompanyModel.Remove | models/company.js:186-198 | Success deletes exactly that handle. A missing handle is NotFound "No company: <handle>". |
| CompanyModel.CreateThenGet | models/company.js:20-51 | Fetching a freshly created company returns what `create` reported. |
| CompanyModel.CreateTwiceRejected | models/company.js:21-30 | Creating the same handle a second time is rejected as a duplicate. |
| CompanyModel.RemoveThenGet | models/company.js:186-198 | After `remove`, the handle is NotFound and every other handle reads as before. |
| CompanyModel.UpdateMissingIsNotFound | models/company.js:173-176 | Updating a missing handle is NotFound. |
| CompanyModel.UpdateEffect | models/company.js:157-178 | A successful update rewrites only that company's row. Supplied fields take their values, with `numEmployees` and `logoUrl` going to their mapped columns. Every other column and company is untouched. |
| CompanyModel.CreatePreservesValidStore | models/company.js:20-51 | `create` keeps every row on the table's columns. |
| CompanyModel.RemovePreservesValidStore | models/company.js:186-198 | `remove` keeps the table well formed. |
| CompanyModel.UpdatePreservesValidStore | models/company.js:156-179 | `update` keeps the table well formed. |
| Rows.IntegerInput | models/job.js:115-125 | A value bound to the `integer` id column reads as a number in the 32-bit range, or fails. |
| Rows.IntegerInputOfNumeral | models/job.js:111-125 | A decimal numeral reads as its value when it is at most 2147483647 and is rejected above that. |
| Rows.BuildUpdate | models/job.js:151-166 | The key's placeholder comes right after the SET values. The key is the last parameter, bound after the values in their order, and the SET list is the builder's. |
| Rows.KeyBoundAfterValues | models/job.js:154-166 | The key sits at `$(values.length+1)`, the last parameter, after every SET placeholder, and each SET placeholder binds its own field's value. |
| Rows.BuiltStatementAccepted | models/company.js:157-173 | For a non-empty update on existing, distinct columns, the built statement's placeholders and parameters match exactly. |
| Rows.ExecuteUpdate | models/job.js:166-169 | An executed UPDATE changes a row only under a key that exists, and keeps the row's columns. "No row" means the key parameter named no stored row. |
| Rows.ApplyAssignmentsEffect | models/company.js:163-173 | Running a SET list with distinct columns sets each column to its parameter and keeps every other column as it was. |
| Rows.AssignmentsPatch | models/job.js:151-166 | The SET list built from an update object patches the row with exactly that object's fields. |
| Rows.UpdateStatementEffect | models/job.js:151-169 | The statement `update` builds changes exactly the row under the key, field by field, or reports no row. |
| QueryMiddleware.AuthenticateQuery | middleware/query.js:9-37 | A falsy query passes. Every rejection is a BadRequest. A present query passes only when all its keys are allowed. |
| QueryMiddleware.FirstInvalidKey | middleware/query.js:15-21 | There is no offending key exactly when every key is allowed. Otherwise the offending key is the first disallowed one in iteration order. |
| QueryMiddleware.AdmittedQueries | middleware/query.js:9-37 | A present query passes exactly when all its keys are allowed, a truthy minimum is numeric, and two truthy numeric bounds are in order. |
| QueryMiddleware.RejectionsAreBadRequests | middleware/query.js:17-32 | Every rejection is a BadRequest carrying one of the three messages. |
| QueryMiddleware.AllowListFirst | middleware/query.js:15-21 | A disallowed key is reported first, naming the first such key, whatever the bounds hold. |
| QueryMiddleware.NumericBeforeRange | middleware/query.js:23-27 | A non-numeric truthy minimum is rejected with the numbers message. |
| QueryMiddleware.NonNumericMaxPasses | middleware/query.js:11-27 | A non-numeric maximum on its own passes, because only the minimum is checked. |
| QueryMiddleware.ZeroBoundSkipsRange | middleware/query.js:29 | A zero bound is falsy, so the range check cannot fire. |
| QueryMiddleware.InvalidKeyExample | middleware/query.js:16-19 | `badQueryString` is rejected with "badQueryString is an invalid query string". |
| QueryMiddleware.NotNumericExample | middleware/query.js:23-26 | `minEmployees=string` is rejected as not a number. |
| QueryMiddleware.MinAboveMaxExample | middleware/query.js:29-32 | 1000 above 600 is rejected with the range message. |
| QueryMiddleware.AdmittedQueryGivesContiguousSearch | middleware/query.js:13-21 | An admitted query gives the company search one condition per key, numbered $1..$n and each bound to its own key's value. |
| AuthMiddleware.AuthenticateJwt | middleware/auth.js:18-30 | A missing or empty header stores no user. A non-empty header stores exactly the verification of the extracted token. |
| AuthMiddleware.StripBearer | middleware/auth.js:21 | The header changes exactly when it starts with `Bearer ` or `bearer `, and then only those seven characters are removed. |
| AuthMiddleware.ExtractToken | middleware/auth.js:21 | The token is no longer than the header and neither starts nor ends with white space. |
| AuthMiddleware.EnsureLoggedIn | middleware/auth.js:37-40 | The guard either calls `next()` or throws Unauthorized with the default message. It admits only a user with a truthy username. |
| AuthMiddleware.CheckAdmin | middleware/auth.js:47-54 | The guard either calls `next()` or throws "Not an admin". Whoever it admits passes `ensureLoggedIn` and has an `isAdmin` that does not loosely equal false. |
| AuthMiddleware.CheckAdminOrCorrectUser | middleware/auth.js:60-68 | The guard either calls `next()` or throws "Not an admin or the correct user". A user whose `isAdmin` loosely equals true always passes. |
| AuthMiddleware.BearerStripped | middleware/auth.js:21 | A `Bearer ` or `bearer ` prefix is removed and the rest trimmed before verification. |
| AuthMiddleware.NoPrefixKept | middleware/auth.js:21 | Without that prefix the whole header, trimmed, is the token. `BEARER ` is not stripped. |
| AuthMiddleware.PrefixRemovedOnce | middleware/auth.js:21 | Only one leading prefix is removed. |
| AuthMiddleware.AnonymousRejected | middleware/auth.js:37-54 | A request with no stored user is rejected by `ensureLoggedIn` and by `checkAdmin`. |
| AuthMiddleware.LoggedInExactly | middleware/auth.js:37-40 | `ensureLoggedIn` admits exactly users with a truthy username. Its only rejection is Unauthorized. |
| AuthMiddleware.CheckAdminExactly | middleware/auth.js:47-54 | `checkAdmin` rejects exactly users without a truthy username and users whose `isAdmin` loosely equals false. It rejects with "Not an admin". |
| AuthMiddleware.AdminImpliesLoggedIn | middleware/auth.js:37-54 | Whoever passes `checkAdmin` passes `ensureLoggedIn`. |
| AuthMiddleware.MissingIsAdminAdmitted | middleware/auth.js:49 | A username with no `isAdmin` field, or with `isAdmin: null`, passes `checkAdmin`, because neither loosely equals false. |
| AuthMiddleware.AdminFlagDecides | middleware/auth.js:49 | `isAdmin: true` passes `checkAdmin` and `isAdmin: false` does not. |
| AuthMiddleware.AdminPassesAnyParam | middleware/auth.js:63 | An `isAdmin == true` user passes `checkAdminOrCorrectUser` whatever the route names. |
| AuthMiddleware.NonAdminPassesIffSameUser | middleware/auth.js:60-68 | A non-admin passes `checkAdminOrCorrectUser` exactly when the route names their own username. Otherwise the rejection is "Not an admin or the correct user". |
| AuthMiddleware.AdminAgreesAcrossGuards | middleware/auth.js:49-63 | A user who is an admin for `checkAdminOrCorrectUser` and has a username also passes `checkAdmin`. |

## Left out

- SQL execution beyond the keyed UPDATE: ILIKE matching, `>=`/`<=` filtering, `ORDER BY`, and the rows `findAll` returns. The model produces the WHERE text and its bound values, not the query's result.
- `jwt.verify` and the secret key: verification is a function parameter of `AuthenticateJwt`.
- `Number()` is modelled as an exact reading of decimal integer text, because the `Value` datatype has no floating point. Text with a fraction, an exponent, a `0x`, `0o` or `0b` prefix or `Infinity` reads as NaN in this model, and number values that are not integers do not exist in it.
- JsValues.StringToNumber: "1.5", "1e3", ".5", "0x10", "0o10", "0b10" and "Infinity" are numbers to JavaScript's `Number()` but NaN here. JavaScript's `Number()` also returns a double: a numeral above 2^53 is rounded to a nearby double, and one beyond about 1.8e308 becomes `Infinity`. Here every numeral reads as its exact, unbounded value.
- JsValues.StringToNumberOfNat, JsValues.SignedNumeral: these hold for JavaScript's `Number()` only for n ≤ 2^53. Above that, `Number()` rounds, and the model does not.
- JsValues.WordIsNaN: text starting with `.` or `I` is left out, because `Number()` reads ".5" and "Infinity" as numbers.
- JsValues.LooseEqualsBool, AuthMiddleware.CheckAdmin, AuthMiddleware.CheckAdminOrCorrectUser: a string `isAdmin` that `Number()` reads as a non-integer form of 0 or 1 compares differently. For "0.0", "0e0", ".0" or "0x0", `isAdmin == false` holds in JavaScript, so `checkAdmin` rejects the user with "Not an admin", but the model admits them. For "1.0" or "1e0", `isAdmin == true` holds in JavaScript, so `checkAdminOrCorrectUser` admits the user on any route, but the model admits them only on their own username.
- QueryMiddleware.AuthenticateQuery: a fractional `minEmployees` such as "1.5" is rejected here with the numbers message. The source accepts it and compares the bounds as real numbers. In the other direction, a fractional `maxEmployees` reads as NaN here and so skips the range check: `{minEmployees: "2", maxEmployees: "1.5"}` passes here, while the source rejects it with the range message. Bounds above 2^53 are compared exactly here, while the source compares rounded doubles. `{minEmployees: "9007199254740993", maxEmployees: "9007199254740992"}` is rejected here with the range message. The source reads both as 9007199254740992 and passes the query.
- JobModel.Get, JobModel.Update, JobModel.Remove: an id such as "1.5", "1e3" or "Infinity" is a BadRequest here. The source lets it past `isNaN` and the database then rejects it as invalid integer input. An id such as "0x10", "0o20" or "0b10000" is also a BadRequest "jobId should be a number" here. The source lets it past `isNaN`, and PostgreSQL 16 reads it as 16 and finds that job.
- Rows.IntegerInput: the hex, octal, binary and underscore-separated integer literals that PostgreSQL 16 also accepts are not modelled; such text is rejected.
- SqlHelpers.SqlForPartialUpdate: keys naming inherited `Object.prototype` members (`toString`, `constructor`, `valueOf`, `__proto__`) are not modelled. For such a key `jsToSql[colName]` finds the inherited value instead of `undefined`, so the column would not fall back to the key.
- Non-scalar values are not modelled: a `Value` is a string, an integer, a boolean or null. A token claim such as `isAdmin: []` cannot be expressed. In JavaScript `[] == false` holds, so `checkAdmin` (middleware/auth.js:49) rejects such a user.
- Array-valued query parameters (`?a=1&a=2`) are not modelled; a query value is a single value.
- Key order: an object's keys are iterated in sequence order. JavaScript's placing of integer-like keys first is not modelled.
- Company and Job `findAll` given a present but falsy filter (`search` returns `false`, giving `WHERE undefined`) are not modelled; a filter is either undefined or an object.
- JobModel.Update, CompanyModel.Update: an update that names the key column (`id`, `handle`), an unknown column, or two fields mapping to one column is an error from the database interpreter rather than a modelled change. The schema, foreign keys and column types are not modelled.
- JobModel.Create, CompanyModel.Create: the reported row is the supplied values. The source reports the `RETURNING` row after PostgreSQL has converted the values through the column types. For example, an equity of 0.098 comes back as the string "0.098", an integer equity comes back as a decimal string, and a numeric string salary comes back as an integer. Column types are not modelled.
- JobModel.Create: the table is assumed to hand out fresh ids. A collision is an error only on a malformed table, and the database's foreign-key check on `company_handle` is not modelled.
- `console.log` calls, async/await, and the route handlers in routes/jobs.js are not part of this model.
- `res.locals.user` set before `authenticateJWT` runs, and a failed verification leaving an earlier user in place, are not modelled: a failed verification yields no user.
- AuthMiddleware.CheckAdminOrCorrectUser takes a present user, because the source reads `user.isAdmin` unguarded and throws a TypeError when there is none. That TypeError path is not modelled.
- `UnauthorizedError` with no argument is taken to carry the message "Unauthorized"; expressError.js is not part of this model.
- The company duplicate check raises BadRequest, as the code does. A Conflict status is not used.
- The query middleware's range message is the code's "value for minEmployees should be equal to or less than maxEmployees". The accompanying test expects the message without "value for "; the model follows the code.

=== FILE: auth.dfy ===
/**
 * middleware/auth.js: how a bearer header becomes the request's identity,
 * and the three guards that admit or reject a request on that identity.
 * Token verification is a parameter: the model does not look inside it.
 */
module AuthMiddleware {
  import opened Results
  import opened JsValues

  /** A verified token payload: the `username` and `isAdmin` fields, None where absent. */
  datatype Claim = Claim(username: Option<Value>, isAdmin: Option<Value>)

  /** The message an UnauthorizedError carries when none is given. */
  const DefaultUnauthorized: string := "Unauthorized"

  const NotAdmin: string := "Not an admin"
  const NotAdminOrUser: string := "Not an admin or the correct user"

  /** The header starts with `Bearer ` or `bearer `. */
  predicate HasBearerPrefix(h: string) {
    |h| >= 7 && (h[0] == 'B' || h[0] == 'b') && h[1..7] == "earer "
  }

  /** `header.replace(/^[Bb]earer /, "")`: only one prefix, and only at the start, is removed. */
  function StripBearer(h: string): (r: string)
    ensures r != h <==> HasBearerPrefix(h)
    ensures r != h ==> h == h[..7] + r
  {
    if HasBearerPrefix(h) then h[7..] else h
  }

  /** The token `authenticateJWT` hands to verification. */
  function ExtractToken(header: string): (r: string)
    ensures |r| <= |header|
    ensures r == [] || (!IsWhitespace(r[0]) && !IsWhitespace(r[|r| - 1]))
  {
    Trim(StripBearer(header))
  }

  /**
   * `authenticateJWT`: the identity stored for the request. A missing or
   * empty header leaves none; otherwise the extracted token is verified and
   * a failed verification also leaves none. It never rejects the request.
   */
  function AuthenticateJwt(header: Option<string>, verify: string -> Option<Claim>): (user: Option<Claim>)
    ensures header.None? || header == Some("") ==> user.None?
    ensures user.Some? ==> header.Some? && user == verify(ExtractToken(header.value))
    ensures header.Some? && header.value != "" ==> user == verify(ExtractToken(header.value))
  {
    match header
    case None => None
    case Some(h) => if h == "" then None else verify(ExtractToken(h))
  }

  /** `user?.username`. */
  function Username(user: Option<Claim>): Option<Value> {
    if user.Some? then user.value.username else None
  }

  /** `user?.isAdmin`. */
  function IsAdminField(user: Option<Claim>): Option<Value> {
    if user.Some? then user.value.isAdmin else None
  }

  /** `ensureLoggedIn`. */
  function EnsureLoggedIn(user: Option<Claim>): (r: Outcome)
    ensures r == Next || r == Throw(Unauthorized(DefaultUnauthorized))
    ensures r == Next ==> user.Some? && TruthyOpt(user.value.username)
  {
    if TruthyOpt(Username(user)) then Next else Throw(Unauthorized(DefaultUnauthorized))
  }

  /** `checkAdmin`. */
  function CheckAdmin(user: Option<Claim>): (r: Outcome)
    ensures r == Next || r == Throw(Unauthorized(NotAdmin))
    ensures r == Next ==> EnsureLoggedIn(user) == Next && !LooseEqualsBool(user.value.isAdmin, false)
  {
    if !TruthyOpt(Username(user)) || LooseEqualsBool(IsAdminField(user), false) then Throw(Unauthorized(NotAdmin))
    else Next
  }

  /** `user.username === req.params.username`; None on either side is `undefined`. */
  predicate SameUser(username: Option<Value>, param: Option<string>) {
    match param
    case None => username.None?
    case Some(p) => username == Some(Str(p))
  }

  /** `checkAdminOrCorrectUser`; the claim must be present, as the source reads it unguarded. */
  function CheckAdminOrCorrectUser(user: Claim, param: Option<string>): (r: Outcome)
    ensures r == Next || r == Throw(Unauthorized(NotAdminOrUser))
    ensures LooseEqualsBool(user.isAdmin, true) ==> r == Next
    ensures r == Next ==> LooseEqualsBool(user.isAdmin, true) || user.username.Some? || param.None?
  {
    if LooseEqualsBool(user.isAdmin, true) || SameUser(user.username, param) then Next
    else Throw(Unauthorized(NotAdminOrUser))
  }

  /** A `Bearer ` or `bearer ` prefix is removed and the rest trimmed; verification sees the bare token. */
  lemma BearerStripped(scheme: string, token: string, verify: string -> Option<Claim>)
    requires scheme == "Bearer " || scheme == "bearer "
    ensures ExtractToken(scheme + token) == Trim(token)
    ensures AuthenticateJwt(Some(scheme + token), verify) == verify(Trim(token))
  {
    assert HasBearerPrefix(scheme + token);
    assert (scheme + token)[7..] == token;
  }

  /** Without the prefix the whole header, trimmed, is the token; other spellings such as `BEARER ` are kept. */
  lemma NoPrefixKept(header: string)
    requires !HasBearerPrefix(header)
    ensures ExtractToken(header) == Trim(header)
    ensures ExtractToken("BEARER " + header) == Trim("BEARER " + header)
  {
    assert ("BEARER " + header)[0] == 'B';
    assert ("BEARER " + header)[1] == 'E';
  }

  /** The prefix is removed once: `Bearer Bearer t` leaves `Bearer t`. */
  lemma PrefixRemovedOnce(token: string)
    ensures StripBearer("Bearer " + ("Bearer " + token)) == "Bearer " + token
  {
    var h := "Bearer " + ("Bearer " + token);
    assert HasBearerPrefix(h);
    assert h[7..] == "Bearer " + token;
  }

  /** A request without a usable header or token carries no identity, so every guard but `authenticateJWT` rejects it. */
  lemma AnonymousRejected(verify: string -> Option<Claim>, header: Option<string>)
    requires AuthenticateJwt(header, verify).None?
    ensures EnsureLoggedIn(AuthenticateJwt(header, verify)) == Throw(Unauthorized(DefaultUnauthorized))
    ensures CheckAdmin(AuthenticateJwt(header, verify)) == Throw(Unauthorized(NotAdmin))
  {
  }

  /** `ensureLoggedIn` admits exactly the identities with a truthy username; every rejection is Unauthorized. */
  lemma LoggedInExactly(user: Option<Claim>)
    ensures EnsureLoggedIn(user) == Next <==> user.Some? && TruthyOpt(user.value.username)
    ensures EnsureLoggedIn(user).Throw? ==> EnsureLoggedIn(user).error.Unauthorized?
  {
  }

  /**
   * `checkAdmin` rejects exactly the identities without a truthy username
   * and those whose `isAdmin` loosely equals false.
   */
  lemma CheckAdminExactly(user: Option<Claim>)
    ensures CheckAdmin(user) == Throw(Unauthorized(NotAdmin)) <==>
      user.None? || !TruthyOpt(user.value.username) || LooseEqualsBool(user.value.isAdmin, false)
    ensures CheckAdmin(user) == Next || CheckAdmin(user) == Throw(Unauthorized(NotAdmin))
  {
  }

  /** Whoever passes `checkAdmin` also passes `ensureLoggedIn`. */
  lemma AdminImpliesLoggedIn(user: Option<Claim>)
    ensures CheckAdmin(user) == Next ==> EnsureLoggedIn(user) == Next
  {
  }

  /** A claim with a username and no `isAdmin` field passes `checkAdmin`, as does `isAdmin: null`. */
  lemma MissingIsAdminAdmitted(name: Value, isAdmin: Option<Value>)
    requires Truthy(name)
    requires isAdmin == None || isAdmin == Some(Null)
    ensures CheckAdmin(Some(Claim(Some(name), isAdmin))) == Next
  {
  }

  /** `isAdmin: true` with a username passes `checkAdmin`; `isAdmin: false` never does. */
  lemma AdminFlagDecides(name: Value)
    requires Truthy(name)
    ensures CheckAdmin(Some(Claim(Some(name), Some(Bool(true))))) == Next
    ensures CheckAdmin(Some(Claim(Some(name), Some(Bool(false))))) == Throw(Unauthorized(NotAdmin))
  {
  }

  /** An admin passes `checkAdminOrCorrectUser` whatever the route's username. */
  lemma AdminPassesAnyParam(user: Claim, param: Option<string>)
    requires LooseEqualsBool(user.isAdmin, true)
    ensures CheckAdminOrCorrectUser(user, param) == Next
  {
  }

  /** A non-admin passes `checkAdminOrCorrectUser` exactly when the route names their own username. */
  lemma NonAdminPassesIffSameUser(user: Claim, p: string)
    requires !LooseEqualsBool(user.isAdmin, true)
    ensures CheckAdminOrCorrectUser(user, Some(p)) == Next <==> user.username == Some(Str(p))
    ensures CheckAdminOrCorrectUser(user, Some(p)) != Next ==>
      CheckAdminOrCorrectUser(user, Some(p)) == Throw(Unauthorized(NotAdminOrUser))
  {
  }

  /**
   * An admin in the sense of `checkAdminOrCorrectUser` (`isAdmin == true`)
   * with a username also passes `checkAdmin`: no value equals both true and false.
   */
  lemma AdminAgreesAcrossGuards(user: Claim)
    requires LooseEqualsBool(user.isAdmin, true) && TruthyOpt(user.username)
    ensures CheckAdmin(Some(user)) == Next
  {
  }
}

=== FILE: company.dfy ===
/**
 * models/company.js: the company filter builder `search`, the WHERE
 * composition of `findAll`, and `create`/`get`/`update`/`remove` as
 * transitions of a company table held as a map from handle to row.
 */
module CompanyModel {
  import opened Results
  import opened Decimal
  import opened JsValues
  import opened SqlHelpers
  import opened Filters
  import opened Rows

  // ---------------------------------------------------------------- search

  /** The filter keys the company search gives a condition to. */
  predicate IsCompanyFilterKey(k: string) {
    k == "nameLike" || k == "minEmployees" || k == "maxEmployees"
  }

  /**
   * One turn of the loop: push the value, then, for a filter key, push the
   * condition whose placeholder is the new length. Every other key leaves
   * its value pushed without a condition.
   */
  function SearchStep(acc: Scan, e: Entry): Scan {
    var pushed := acc.values + [e.1];
    if e.0 == "nameLike" then Scan(acc.clauses + [NameLike(|pushed|)], pushed)
    else if e.0 == "minEmployees" then Scan(acc.clauses + [EmployeesAtLeast(|pushed|)], pushed)
    else if e.0 == "maxEmployees" then Scan(acc.clauses + [EmployeesAtMost(|pushed|)], pushed)
    else Scan(acc.clauses, pushed)
  }

  /** The loop after its first i turns: i values, and only placeholder-carrying conditions. */
  function ScanPrefix(q: Obj, i: nat): (s: Scan)
    requires i <= |q|
    ensures |s.values| == i
    ensures forall j :: 0 <= j < |s.clauses| ==> s.clauses[j].Slotted()
  {
    if i == 0 then Scan([], []) else SearchStep(ScanPrefix(q, i - 1), q[i - 1])
  }

  /** `search(q)` for a present filter object; no condition is blank, so none is filtered out. */
  function SearchObj(q: Obj): (r: Filter)
    ensures |r.filterValues| == |q|
    ensures r.whereSqlString == "" <==> forall j :: 0 <= j < |q| ==> !IsCompanyFilterKey(q[j].0)
  {
    var s := ScanPrefix(q, |q|);
    NoConditionsWithoutFilterKeys(q, |q|);
    Filter(s.clauses, JoinAnd(s.clauses), s.values)
  }

  /** The first i turns give no condition exactly when none of their keys is a filter key. */
  lemma {:induction false} NoConditionsWithoutFilterKeys(q: Obj, i: nat)
    requires i <= |q|
    ensures |ScanPrefix(q, i).clauses| == 0 <==> forall j :: 0 <= j < i ==> !IsCompanyFilterKey(q[j].0)
  {
    if i > 0 {
      NoConditionsWithoutFilterKeys(q, i - 1);
    }
  }

  /** `Company.search(queryStrings)`: `false` when the argument is falsy. */
  function Search(queryStrings: Option<Obj>): (r: SearchResult)
    ensures r.NotSearched? <==> queryStrings.None?
    ensures r.Searched? ==> r.filter.filterValues == EntryValues(queryStrings.value)
  {
    match queryStrings
    case None => NotSearched
    case Some(q) => CompanySearchValues(q); Searched(SearchObj(q))
  }

  /** The values of an object's entries, in order. */
  function EntryValues(q: Obj): (r: seq<Value>)
    ensures |r| == |q|
  {
    seq(|q|, k requires 0 <= k < |q| => q[k].1)
  }

  lemma {:induction false} ScanValues(q: Obj, i: nat)
    requires i <= |q|
    ensures ScanPrefix(q, i).values == EntryValues(q[..i])
  {
    if i > 0 {
      ScanValues(q, i - 1);
      assert ScanPrefix(q, i).values == ScanPrefix(q, i - 1).values + [q[i - 1].1];
      assert EntryValues(q[..i]) == EntryValues(q[..i - 1]) + [q[i - 1].1];
    }
  }

  /** One turn keeps every placeholder aligned and increasing. */
  lemma StepAligned(q: Obj, i: nat, acc: Scan)
    requires DistinctKeys(q)
    requires i < |q|
    requires Aligned(q, acc.clauses, acc.values) && Increasing(acc.clauses)
    ensures Aligned(q, SearchStep(acc, q[i]).clauses, SearchStep(acc, q[i]).values)
    ensures Increasing(SearchStep(acc, q[i]).clauses)
  {
    var e := q[i];
    var n := |acc.values|;
    var pushed := acc.values + [e.1];
    AlignedPush(q, acc.clauses, acc.values, e.1);
    if IsCompanyFilterKey(e.0) {
      var c := if e.0 == "nameLike" then NameLike(n + 1)
               else if e.0 == "minEmployees" then EmployeesAtLeast(n + 1)
               else EmployeesAtMost(n + 1);
      assert SearchStep(acc, e) == Scan(acc.clauses + [c], pushed);
      LookupAt(q, i);
      assert ClauseAligned(q, c, pushed);
      assert forall j :: 0 <= j < |acc.clauses| && acc.clauses[j].Slotted() ==> acc.clauses[j].slot <= n by {
        forall j | 0 <= j < |acc.clauses| ensures acc.clauses[j].Slotted() ==> acc.clauses[j].slot <= n {
          assert ClauseAligned(q, acc.clauses[j], acc.values);
        }
      }
    } else {
      assert SearchStep(acc, e) == Scan(acc.clauses, pushed);
    }
  }

  lemma {:induction false} ScanAligned(q: Obj, i: nat)
    requires DistinctKeys(q)
    requires i <= |q|
    ensures Aligned(q, ScanPrefix(q, i).clauses, ScanPrefix(q, i).values)
    ensures Increasing(ScanPrefix(q, i).clauses)
  {
    if i > 0 {
      ScanAligned(q, i - 1);
      StepAligned(q, i - 1, ScanPrefix(q, i - 1));
    }
  }

  /** Every key of the object among the first i is one the company search gives a condition to. */
  predicate OnlyCompanyFilterKeys(q: Obj, i: nat)
    requires i <= |q|
  {
    forall k :: 0 <= k < i ==> IsCompanyFilterKey(q[k].0)
  }

  lemma {:induction false} ScanContiguous(q: Obj, i: nat)
    requires i <= |q|
    requires OnlyCompanyFilterKeys(q, i)
    ensures Contiguous(ScanPrefix(q, i).clauses, i)
    ensures |ScanPrefix(q, i).clauses| == i
  {
    if i > 0 {
      ScanContiguous(q, i - 1);
      var acc := ScanPrefix(q, i - 1);
      var e := q[i - 1];
      assert IsCompanyFilterKey(e.0);
      var c := if e.0 == "nameLike" then NameLike(i)
               else if e.0 == "minEmployees" then EmployeesAtLeast(i)
               else EmployeesAtMost(i);
      assert ScanPrefix(q, i) == Scan(acc.clauses + [c], acc.values + [e.1]);
      ContiguousExtend(acc.clauses, i - 1, c);
    }
  }

  /** `filterValues` holds the value of every key, the unrecognised ones included, in the object's order. */
  lemma CompanySearchValues(q: Obj)
    ensures SearchObj(q).filterValues == EntryValues(q)
  {
    ScanValues(q, |q|);
    assert q[..|q|] == q;
  }

  /**
   * Placeholder/value alignment of the company filter, whatever the keys:
   * every `$k` lies in 1..|filterValues|, no two conditions share one, and
   * `$k` binds the value of the condition's own key. When every key is
   * nameLike, minEmployees or maxEmployees, there is one condition per key
   * and the placeholders are exactly $1..$n.
   */
  lemma CompanySearchAligned(q: Obj)
    requires DistinctKeys(q)
    ensures Aligned(q, SearchObj(q).clauses, SearchObj(q).filterValues)
    ensures Increasing(SearchObj(q).clauses)
    ensures OnlyCompanyFilterKeys(q, |q|) ==>
      |SearchObj(q).clauses| == |q| && Contiguous(SearchObj(q).clauses, |SearchObj(q).filterValues|)
  {
    ScanAligned(q, |q|);
    if OnlyCompanyFilterKeys(q, |q|) {
      ScanContiguous(q, |q|);
    }
  }

  /**
   * An unrecognised key still takes a placeholder number: after one, the
   * next condition's placeholder is `$2` and `$1` is bound but never used.
   */
  lemma UnknownKeyShiftsPlaceholders(other: string, v: Value, name: Value)
    requires !IsCompanyFilterKey(other)
    ensures SearchObj([(other, v), ("nameLike", name)]).clauses == [NameLike(2)]
    ensures SearchObj([(other, v), ("nameLike", name)]).filterValues == [v, name]
  {
    var q := [(other, v), ("nameLike", name)];
    assert ScanPrefix(q, 1) == Scan([], [v]);
    assert ScanPrefix(q, 2) == Scan([NameLike(2)], [v, name]);
  }

  /** The worked example's two conditions print as the builder's templates. */
  lemma ExampleConditions()
    ensures RenderAll([NameLike(1), EmployeesAtLeast(2)]) == ["name ILIKE '%' || $1 || '%'", "num_employees >= $2"]
  {
    SmallNumerals();
    assert Render(NameLike(1)) == "name ILIKE '%' || $1 || '%'";
    assert Render(EmployeesAtLeast(2)) == "num_employees >= $2";
  }

  /** The text of the worked example's two conditions. */
  lemma ExampleText()
    ensures JoinAnd([NameLike(1), EmployeesAtLeast(2)]) == "name ILIKE '%' || $1 || '%' AND num_employees >= $2"
  {
    ExampleConditions();
    JoinSmall("name ILIKE '%' || $1 || '%'", "num_employees >= $2", " AND ");
  }

  /** The worked example: a name filter and a minimum size. */
  lemma CompanySearchExample()
    ensures SearchObj([("nameLike", Str("1")), ("minEmployees", Int(1))])
      == Filter([NameLike(1), EmployeesAtLeast(2)],
                "name ILIKE '%' || $1 || '%' AND num_employees >= $2",
                [Str("1"), Int(1)])
  {
    var q := [("nameLike", Str("1")), ("minEmployees", Int(1))];
    assert ScanPrefix(q, 1) == Scan([NameLike(1)], [Str("1")]);
    assert ScanPrefix(q, 2) == Scan([NameLike(1), EmployeesAtLeast(2)], [Str("1"), Int(1)]);
    ExampleText();
  }

  // --------------------------------------------------------------- findAll

  /**
   * The WHERE part and parameters of `Company.findAll(filter)`; None is an
   * undefined filter, which skips `search` altogether.
   */
  function FindAll(filter: Option<Obj>): (r: ListQuery)
    ensures filter.None? ==> r == ListQuery("", [])
    ensures filter.Some? ==>
      && (r.where != "" <==> |SearchObj(filter.value).clauses| > 0)
      && (r.where != "" ==> r.where == "WHERE " + SearchObj(filter.value).whereSqlString)
      && r.params == SearchObj(filter.value).filterValues
  {
    match filter
    case None => ListQuery("", [])
    case Some(q) =>
      var f := SearchObj(q);
      ListQuery(WherePart(f.whereSqlString), f.filterValues)
  }

  // ---------------------------------------------------------- repository

  /** The columns of the companies table besides the handle, its key. */
  const CompanyColumns: set<string> := {"name", "description", "num_employees", "logo_url"}

  /** The `jsToSql` mapping `update` passes. */
  const CompanyJsToSql: ColumnMap := map["numEmployees" := "num_employees", "logoUrl" := "logo_url"]

  /** The companies table: rows by handle. */
  type CompanyStore = map<string, Row>

  /** Every row has exactly the table's columns. */
  predicate ValidStore(s: CompanyStore) {
    forall h :: h in s ==> s[h].Keys == CompanyColumns
  }

  /** A row as `RETURNING handle, name, description, num_employees AS "numEmployees", logo_url AS "logoUrl"` reports it. */
  function CompanyJson(handle: string, row: Row): Obj {
    [("handle", Str(handle)), ("name", Column(row, "name")), ("description", Column(row, "description")),
     ("numEmployees", Column(row, "num_employees")), ("logoUrl", Column(row, "logo_url"))]
  }

  /** How the database reads a bound handle: as the text it is. */
  function HandleKey(v: Value): Option<string> {
    match v
    case Str(s) => Some(s)
    case _ => None
  }

  /** The fields `create` destructures from its argument. */
  datatype CompanyInput = CompanyInput(handle: string, name: Value, description: Value, numEmployees: Value, logoUrl: Value)

  /** The row `create` inserts. */
  function InputRow(data: CompanyInput): Row {
    map["name" := data.name, "description" := data.description,
        "num_employees" := data.numEmployees, "logo_url" := data.logoUrl]
  }

  /** `Company.create(data)`: a taken handle is a BadRequest; otherwise insert and report the new row. */
  function Create(store: CompanyStore, data: CompanyInput): (r: Result<(CompanyStore, Obj)>)
    ensures data.handle in store <==> r.Err?
    ensures r.Err? ==> r.error == BadRequest("Duplicate company: " + data.handle)
    ensures r.Ok? ==>
      && r.value.0.Keys == store.Keys + {data.handle}
      && (forall h :: h in store ==> r.value.0[h] == store[h])
      && r.value.1 == [("handle", Str(data.handle)), ("name", data.name), ("description", data.description),
                       ("numEmployees", data.numEmployees), ("logoUrl", data.logoUrl)]
  {
    if data.handle in store then Err(BadRequest("Duplicate company: " + data.handle))
    else
      var row := InputRow(data);
      Ok((store[data.handle := row], CompanyJson(data.handle, row)))
  }

  /** `Company.get(handle)`. */
  function Get(store: CompanyStore, handle: string): (r: Result<Obj>)
    ensures handle in store <==> r.Ok?
    ensures r.Ok? ==> r.value == CompanyJson(handle, store[handle])
    ensures r.Err? ==> r.error == NotFound("No company: " + handle)
  {
    if handle in store then Ok(CompanyJson(handle, store[handle])) else Err(NotFound("No company: " + handle))
  }

  /** `Company.update(handle, data)`. */
  function Update(store: CompanyStore, handle: string, data: Obj): (r: Result<(CompanyStore, Obj)>)
    ensures |data| == 0 ==> r == Err(BadRequest("No data"))
    ensures r.Ok? ==> handle in store && r.value.0.Keys == store.Keys
  {
    var pu :- SqlForPartialUpdate(data, CompanyJsToSql);
    var ex :- ExecuteUpdate(CompanyColumns, store, HandleKey, BuildUpdate("companies", "handle", pu, Str(handle)));
    match ex
    case NoRow => Err(NotFound("No company: " + handle))
    case Updated(h, row) => Ok((store[h := row], CompanyJson(h, row)))
  }

  /** `Company.remove(handle)`. */
  function Remove(store: CompanyStore, handle: string): (r: Result<CompanyStore>)
    ensures handle in store <==> r.Ok?
    ensures r.Ok? ==> r.value == store - {handle}
    ensures r.Err? ==> r.error == NotFound("No company: " + handle)
  {
    if handle in store then Ok(store - {handle}) else Err(NotFound("No company: " + handle))
  }

  /** Fetching a freshly created company returns what `create` reported. */
  lemma CreateThenGet(store: CompanyStore, data: CompanyInput)
    requires data.handle !in store
    ensures Get(Create(store, data).value.0, data.handle) == Ok(Create(store, data).value.1)
  {
  }

  /** Creating the same handle twice fails the second time and leaves the table as the first call left it. */
  lemma CreateTwiceRejected(store: CompanyStore, data: CompanyInput, again: CompanyInput)
    requires data.handle !in store
    requires again.handle == data.handle
    ensures Create(Create(store, data).value.0, again) == Err(BadRequest("Duplicate company: " + data.handle))
  {
  }

  /** Once removed, a company is not found again, and no other company is touched. */
  lemma RemoveThenGet(store: CompanyStore, handle: string, other: string)
    requires handle in store
    requires other != handle
    ensures Get(Remove(store, handle).value, handle) == Err(NotFound("No company: " + handle))
    ensures Get(Remove(store, handle).value, other) == Get(store, other)
  {
  }

  /** Updating a handle with no row is NotFound, never a silent success. */
  lemma UpdateMissingIsNotFound(store: CompanyStore, handle: string, data: Obj)
    requires handle !in store
    requires |data| > 0 && ValidTargets(CompanyColumns, data, CompanyJsToSql)
    ensures Update(store, handle, data) == Err(NotFound("No company: " + handle))
  {
    UpdateStatementEffect(CompanyColumns, store, HandleKey, data, CompanyJsToSql, "companies", "handle", Str(handle));
  }

  /**
   * A successful update rewrites only the row under the handle: each
   * supplied field's column takes its value, every other column keeps its
   * value, every other row is untouched, and the report shows the new row.
   */
  lemma UpdateEffect(store: CompanyStore, handle: string, data: Obj)
    requires handle in store
    requires |data| > 0 && ValidTargets(CompanyColumns, data, CompanyJsToSql)
    ensures Update(store, handle, data).Ok?
    ensures Update(store, handle, data).value.0 == store[handle := Update(store, handle, data).value.0[handle]]
    ensures PatchedRow(store[handle], Update(store, handle, data).value.0[handle], data, CompanyJsToSql)
    ensures Update(store, handle, data).value.1 == CompanyJson(handle, Update(store, handle, data).value.0[handle])
  {
    UpdateStatementEffect(CompanyColumns, store, HandleKey, data, CompanyJsToSql, "companies", "handle", Str(handle));
    var pu := SqlForPartialUpdate(data, CompanyJsToSql).value;
    var row := ApplyAssignments(store[handle], pu.fragments, pu.values + [Str(handle)]);
    assert Update(store, handle, data) == Ok((store[handle := row], CompanyJson(handle, row)));
  }

  /** `create` keeps the table well formed. */
  lemma CreatePreservesValidStore(store: CompanyStore, data: CompanyInput)
    requires ValidStore(store)
    ensures Create(store, data).Ok? ==> ValidStore(Create(store, data).value.0)
  {
    if Create(store, data).Ok? {
      assert Create(store, data).value.0[data.handle].Keys == CompanyColumns;
    }
  }

  /** `remove` keeps the table well formed. */
  lemma RemovePreservesValidStore(store: CompanyStore, handle: string)
    requires ValidStore(store)
    ensures Remove(store, handle).Ok? ==> ValidStore(Remove(store, handle).value)
  {
  }

  /** Replacing a stored row by one on the table's columns keeps the table well formed. */
  lemma PatchKeepsValidStore(store: CompanyStore, handle: string, row: Row)
    requires ValidStore(store) && handle in store && row.Keys == CompanyColumns
    ensures ValidStore(store[handle := row])
  {
  }

  /** `update` keeps the table well formed: it never adds or drops a column or a row. */
  lemma UpdatePreservesValidStore(store: CompanyStore, handle: string, data: Obj)
    requires ValidStore(store)
    ensures Update(store, handle, data).Ok? ==> ValidStore(Update(store, handle, data).value.0)
  {
    if Update(store, handle, data).Ok? {
      var pu := SqlForPartialUpdate(data, CompanyJsToSql).value;
      var ex := ExecuteUpdate(CompanyColumns, store, HandleKey, BuildUpdate("companies", "handle", pu, Str(handle)));
      assert ex.Ok? && ex.value.Updated?;
      assert Update(store, handle, data).value.0 == store[ex.value.key := ex.value.row];
      PatchKeepsValidStore(store, ex.value.key, ex.value.row);
    }
  }
}

=== FILE: decimal.dfy ===
/**
 * Decimal numerals of natural numbers: how a `$n` placeholder number is
 * printed into SQL text, and how a run of digits is read back.
 */
module Decimal {
  import opened Results

  predicate IsDigit(c: char) {
    '0' <= c <= '9'
  }

  predicate AllDigits(s: string) {
    forall k :: 0 <= k < |s| ==> IsDigit(s[k])
  }

  function DigitChar(d: nat): (c: char)
    requires d < 10
    ensures IsDigit(c) && DigitValue(c) == d
  {
    ('0' as int + d) as char
  }

  function DigitValue(c: char): nat
    requires IsDigit(c)
  {
    c as int - '0' as int
  }

  /** The numeral of n without leading zeros, as template-literal interpolation prints it. */
  function NatToString(n: nat): (s: string)
    ensures |s| >= 1 && AllDigits(s)
    decreases n
  {
    if n < 10 then [DigitChar(n)] else NatToString(n / 10) + [DigitChar(n % 10)]
  }

  /** The value of a digit string; leading zeros are allowed. */
  function DigitsValue(s: string): nat
    requires AllDigits(s)
  {
    if |s| == 0 then 0 else 10 * DigitsValue(s[..|s| - 1]) + DigitValue(s[|s| - 1])
  }

  /** A non-empty run of digits, read as a natural number; anything else is rejected. */
  function ParseNat(s: string): Option<nat> {
    if |s| >= 1 && AllDigits(s) then Some(DigitsValue(s)) else None
  }

  /** A decimal integer numeral with an optional leading sign. */
  function ParseInteger(t: string): Option<int> {
    if |t| >= 1 && (t[0] == '-' || t[0] == '+') then
      match ParseNat(t[1..])
      case Some(n) =>
        var v: int := if t[0] == '-' then -(n as int) else n;
        Some(v)
      case None => None
    else
      match ParseNat(t)
      case Some(n) => Some(n)
      case None => None
  }

  /** Reading back a printed placeholder number gives the number itself. */
  lemma {:induction false} ParseNatToString(n: nat)
    ensures ParseNat(NatToString(n)) == Some(n)
    decreases n
  {
    var s := NatToString(n);
    if n < 10 {
      assert s[..|s| - 1] == [];
      assert DigitsValue(s) == DigitValue(s[0]);
    } else {
      ParseNatToString(n / 10);
      assert s[..|s| - 1] == NatToString(n / 10);
    }
  }

  /** The numerals of the first placeholders. */
  lemma SmallNumerals()
    ensures NatToString(1) == "1" && NatToString(2) == "2" && NatToString(3) == "3"
  {
  }

  /** A printed numeral also reads back through the signed parser. */
  /** A run of digits has no sign, so the signed parser reads it as a natural number. */
  lemma ParseIntegerOfDigits(s: string)
    requires |s| >= 1 && AllDigits(s)
    ensures ParseInteger(s) == Some(DigitsValue(s))
  {
    assert IsDigit(s[0]);
  }

  lemma ParseIntegerOfNat(n: nat)
    ensures ParseInteger(NatToString(n)) == Some(n)
  {
    ParseNatToString(n);
  }
}

=== FILE: filters.dfy ===
/**
 * The WHERE conditions the two `search` builders push, their SQL text, and
 * the placeholder/value alignment every builder output must satisfy.
 */
module Filters {
  import opened Results
  import opened Decimal
  import opened JsValues

  /** One entry of `whereClause`; the slotted ones print a `$slot` placeholder. */
  datatype Clause =
    | Blank                         // the "" a falsy hasEquity pushes
    | TitleLike(slot: nat)
    | SalaryAtLeast(slot: nat)
    | EquityNotNull
    | NameLike(slot: nat)
    | EmployeesAtLeast(slot: nat)
    | EmployeesAtMost(slot: nat)
  {
    predicate Slotted() {
      TitleLike? || SalaryAtLeast? || NameLike? || EmployeesAtLeast? || EmployeesAtMost?
    }

    /** The filter key whose value the clause's placeholder has to bind. */
    function FilterKey(): string
      requires Slotted()
    {
      match this
      case TitleLike(_) => "title"
      case SalaryAtLeast(_) => "minSalary"
      case NameLike(_) => "nameLike"
      case EmployeesAtLeast(_) => "minEmployees"
      case EmployeesAtMost(_) => "maxEmployees"
    }
  }

  /** The SQL text of a condition. */
  function Render(c: Clause): string {
    match c
    case Blank => ""
    case TitleLike(n) => "title ILIKE '%' || $" + NatToString(n) + " || '%'"
    case SalaryAtLeast(n) => "salary >= $" + NatToString(n) + " AND salary IS NOT NULL"
    case EquityNotNull => "equity IS NOT NULL"
    case NameLike(n) => "name ILIKE '%' || $" + NatToString(n) + " || '%'"
    case EmployeesAtLeast(n) => "num_employees >= $" + NatToString(n)
    case EmployeesAtMost(n) => "num_employees <= $" + NatToString(n)
  }

  /** Only the blank condition renders as the empty string. */
  lemma RenderEmpty(c: Clause)
    ensures Render(c) == "" <==> c.Blank?
  {
  }

  function RenderAll(cs: seq<Clause>): (r: seq<string>)
    ensures |r| == |cs|
    ensures forall i :: 0 <= i < |cs| ==> r[i] == Render(cs[i])
  {
    seq(|cs|, i requires 0 <= i < |cs| => Render(cs[i]))
  }

  /** `whereClause.filter(clause => clause !== "")`, on conditions. */
  function NonBlank(cs: seq<Clause>): (r: seq<Clause>)
    ensures forall i :: 0 <= i < |r| ==> !r[i].Blank?
  {
    if |cs| == 0 then []
    else NonBlank(cs[..|cs| - 1]) + (if cs[|cs| - 1].Blank? then [] else [cs[|cs| - 1]])
  }

  /** Filtering leaves nothing exactly when every condition was blank. */
  lemma {:induction false} NonBlankEmpty(cs: seq<Clause>)
    ensures |NonBlank(cs)| == 0 <==> forall j :: 0 <= j < |cs| ==> cs[j].Blank?
    decreases |cs|
  {
    if |cs| > 0 {
      NonBlankEmpty(cs[..|cs| - 1]);
      assert forall j :: 0 <= j < |cs| - 1 ==> cs[..|cs| - 1][j] == cs[j];
    }
  }

  /** The conditions joined with " AND ": empty exactly when no condition is left. */
  function JoinAnd(cs: seq<Clause>): (r: string)
    requires forall i :: 0 <= i < |cs| ==> !cs[i].Blank?
    ensures r == "" <==> |cs| == 0
  {
    var parts := RenderAll(cs);
    JoinEmpty(parts, " AND ");
    Join(parts, " AND ")
  }

  /** The placeholder numbers of the slotted conditions, in clause order. */
  function Slots(cs: seq<Clause>): seq<nat> {
    if |cs| == 0 then []
    else Slots(cs[..|cs| - 1]) + (if cs[|cs| - 1].Slotted() then [cs[|cs| - 1].slot] else [])
  }

  /** The output of a `search`: the conditions, their joined text and the values to bind. */
  datatype Filter = Filter(clauses: seq<Clause>, whereSqlString: string, filterValues: seq<Value>)

  /** `search` answers `false` for a falsy argument and a filter otherwise. */
  datatype SearchResult = NotSearched | Searched(filter: Filter)

  /**
   * Every placeholder lies in 1..|values| and binds the value that the
   * filter object holds under the condition's own key.
   */
  predicate Aligned(q: Obj, cs: seq<Clause>, values: seq<Value>) {
    forall j :: 0 <= j < |cs| ==> ClauseAligned(q, cs[j], values)
  }

  /** One condition's placeholder lies in 1..|values| and binds the value of its own key. */
  predicate ClauseAligned(q: Obj, c: Clause, values: seq<Value>) {
    c.Slotted() ==> 1 <= c.slot <= |values| && Lookup(q, c.FilterKey()) == Some(values[c.slot - 1])
  }

  /** Pushing a value keeps every earlier condition aligned. */
  lemma AlignedPush(q: Obj, cs: seq<Clause>, values: seq<Value>, v: Value)
    requires Aligned(q, cs, values)
    ensures Aligned(q, cs, values + [v])
  {
    forall j | 0 <= j < |cs|
      ensures ClauseAligned(q, cs[j], values + [v])
    {
      assert ClauseAligned(q, cs[j], values);
    }
  }

  /** Placeholder numbers grow from condition to condition, so none is used twice. */
  predicate Increasing(cs: seq<Clause>) {
    forall i, j :: 0 <= i < j < |cs| && cs[i].Slotted() && cs[j].Slotted() ==> cs[i].slot < cs[j].slot
  }

  /** Read in order, the placeholders are exactly $1, $2, …, $n. */
  predicate Contiguous(cs: seq<Clause>, n: nat) {
    var s := Slots(cs);
    |s| == n && forall i :: 0 <= i < n ==> s[i] == i + 1
  }

  /** Appending a condition appends its placeholder, if it has one. */
  lemma SlotsAppend(cs: seq<Clause>, c: Clause)
    ensures Slots(cs + [c]) == Slots(cs) + (if c.Slotted() then [c.slot] else [])
  {
    assert (cs + [c])[..|cs|] == cs;
  }

  /** A condition with the next placeholder, or with none, keeps the placeholders contiguous. */
  lemma ContiguousExtend(cs: seq<Clause>, n: nat, c: Clause)
    requires Contiguous(cs, n)
    ensures c.Slotted() && c.slot == n + 1 ==> Contiguous(cs + [c], n + 1)
    ensures !c.Slotted() ==> Contiguous(cs + [c], n)
  {
    SlotsAppend(cs, c);
  }

  /** Dropping the blank conditions drops no placeholder. */
  lemma {:induction false} SlotsNonBlank(cs: seq<Clause>)
    ensures Slots(NonBlank(cs)) == Slots(cs)
  {
    if |cs| > 0 {
      var init := cs[..|cs| - 1];
      var last := cs[|cs| - 1];
      SlotsNonBlank(init);
      assert Slots(cs) == Slots(init) + (if last.Slotted() then [last.slot] else []);
      if !last.Blank? {
        assert NonBlank(cs) == NonBlank(init) + [last];
        SlotsAppend(NonBlank(init), last);
      } else {
        assert NonBlank(cs) == NonBlank(init) + [];
        assert NonBlank(init) + [] == NonBlank(init);
        assert Slots(init) + [] == Slots(init);
      }
    }
  }

  /** The scan state of a `search` loop: the conditions pushed so far and `filterValues`. */
  datatype Scan = Scan(clauses: seq<Clause>, values: seq<Value>)

  /** The WHERE part of a `findAll` query, with the values bound to it. */
  datatype ListQuery = ListQuery(where: string, params: seq<Value>)

  /** `whereText + whereSqlString`: "WHERE " is prefixed exactly when there are conditions. */
  function WherePart(whereSqlString: string): (r: string)
    ensures r == "" <==> whereSqlString == ""
    ensures r != "" ==> r == "WHERE " + whereSqlString
  {
    if whereSqlString == "" then "" else "WHERE " + whereSqlString
  }
}

=== FILE: job.dfy ===
/**
 * models/job.js: the job filter builder `search`, the WHERE composition of
 * `findAll`, and `create`/`get`/`update`/`remove` as transitions of a job
 * table held as a map from id to row.
 */
module JobModel {
  import opened Results
  import opened Decimal
  import opened JsValues
  import opened SqlHelpers
  import opened Filters
  import opened Rows

  // ---------------------------------------------------------------- search

  /** The filter keys the job search gives a condition to. */
  predicate IsJobFilterKey(k: string) {
    k == "title" || k == "minSalary" || k == "hasEquity"
  }

  /** The condition `hasEquity` stands for, fixed before the loop from the flag's truthiness. */
  function EquityCondition(q: Obj): Clause {
    if TruthyOpt(Lookup(q, "hasEquity")) then EquityNotNull else Blank
  }

  /**
   * One turn of the loop: push the value, then push a condition whose
   * placeholder is the new length; `hasEquity` pushes its fixed condition
   * and pops its value again; any other key leaves its value pushed.
   */
  function SearchStep(acc: Scan, e: Entry, hasEquity: Clause): Scan {
    var pushed := acc.values + [e.1];
    if e.0 == "title" then Scan(acc.clauses + [TitleLike(|pushed|)], pushed)
    else if e.0 == "minSalary" then Scan(acc.clauses + [SalaryAtLeast(|pushed|)], pushed)
    else if e.0 == "hasEquity" then Scan(acc.clauses + [hasEquity], pushed[..|pushed| - 1])
    else Scan(acc.clauses, pushed)
  }

  /** The loop after its first i turns. */
  function ScanPrefix(q: Obj, i: nat, hasEquity: Clause): Scan
    requires i <= |q|
  {
    if i == 0 then Scan([], []) else SearchStep(ScanPrefix(q, i - 1, hasEquity), q[i - 1], hasEquity)
  }

  /** `search(q)` for a present filter object. */
  function SearchObj(q: Obj): (r: Filter)
    ensures r.whereSqlString == "" <==> forall j :: 0 <= j < |r.clauses| ==> r.clauses[j].Blank?
  {
    var s := ScanPrefix(q, |q|, EquityCondition(q));
    NonBlankEmpty(s.clauses);
    Filter(s.clauses, JoinAnd(NonBlank(s.clauses)), s.values)
  }

  /** `Job.search(queryStrings)`: `false` when the argument is falsy. */
  function Search(queryStrings: Option<Obj>): (r: SearchResult)
    ensures r.NotSearched? <==> queryStrings.None?
    ensures r.Searched? ==> r.filter.filterValues == BoundValues(queryStrings.value)
  {
    match queryStrings
    case None => NotSearched
    case Some(q) => JobSearchValues(q); Searched(SearchObj(q))
  }

  /** Reference for `filterValues`: the value of every entry except `hasEquity`, in order. */
  function BoundValues(q: Obj): seq<Value> {
    if |q| == 0 then []
    else BoundValues(q[..|q| - 1]) + (if q[|q| - 1].0 == "hasEquity" then [] else [q[|q| - 1].1])
  }

  lemma {:induction false} ScanValues(q: Obj, i: nat, h: Clause)
    requires i <= |q|
    ensures ScanPrefix(q, i, h).values == BoundValues(q[..i])
  {
    if i > 0 {
      ScanValues(q, i - 1, h);
      assert q[..i][..i - 1] == q[..i - 1];
    }
  }

  /** One turn of the loop keeps every placeholder aligned and increasing. */
  lemma StepAligned(q: Obj, i: nat, acc: Scan, h: Clause)
    requires DistinctKeys(q)
    requires !h.Slotted()
    requires i < |q|
    requires Aligned(q, acc.clauses, acc.values) && Increasing(acc.clauses)
    ensures Aligned(q, SearchStep(acc, q[i], h).clauses, SearchStep(acc, q[i], h).values)
    ensures Increasing(SearchStep(acc, q[i], h).clauses)
  {
    var e := q[i];
    var n := |acc.values|;
    if e.0 == "title" || e.0 == "minSalary" {
      var c := if e.0 == "title" then TitleLike(n + 1) else SalaryAtLeast(n + 1);
      var pushed := acc.values + [e.1];
      assert SearchStep(acc, e, h) == Scan(acc.clauses + [c], pushed);
      AlignedPush(q, acc.clauses, acc.values, e.1);
      LookupAt(q, i);
      assert ClauseAligned(q, c, pushed);
      assert forall j :: 0 <= j < |acc.clauses| && acc.clauses[j].Slotted() ==> acc.clauses[j].slot <= n by {
        forall j | 0 <= j < |acc.clauses| ensures acc.clauses[j].Slotted() ==> acc.clauses[j].slot <= n {
          assert ClauseAligned(q, acc.clauses[j], acc.values);
        }
      }
    } else if e.0 == "hasEquity" {
      assert SearchStep(acc, e, h) == Scan(acc.clauses + [h], acc.values);
    } else {
      assert SearchStep(acc, e, h) == Scan(acc.clauses, acc.values + [e.1]);
      AlignedPush(q, acc.clauses, acc.values, e.1);
    }
  }

  lemma {:induction false} ScanAligned(q: Obj, i: nat, h: Clause)
    requires DistinctKeys(q)
    requires !h.Slotted()
    requires i <= |q|
    ensures Aligned(q, ScanPrefix(q, i, h).clauses, ScanPrefix(q, i, h).values)
    ensures Increasing(ScanPrefix(q, i, h).clauses)
  {
    if i > 0 {
      ScanAligned(q, i - 1, h);
      StepAligned(q, i - 1, ScanPrefix(q, i - 1, h), h);
    }
  }

  /** One turn on an allowed key keeps the placeholders $1..$n for n bound values. */
  lemma StepContiguous(acc: Scan, e: Entry, h: Clause)
    requires !h.Slotted()
    requires IsJobFilterKey(e.0)
    requires Contiguous(acc.clauses, |acc.values|)
    ensures Contiguous(SearchStep(acc, e, h).clauses, |SearchStep(acc, e, h).values|)
  {
    var n := |acc.values|;
    if e.0 == "title" {
      assert SearchStep(acc, e, h) == Scan(acc.clauses + [TitleLike(n + 1)], acc.values + [e.1]);
      ContiguousExtend(acc.clauses, n, TitleLike(n + 1));
    } else if e.0 == "minSalary" {
      assert SearchStep(acc, e, h) == Scan(acc.clauses + [SalaryAtLeast(n + 1)], acc.values + [e.1]);
      ContiguousExtend(acc.clauses, n, SalaryAtLeast(n + 1));
    } else {
      assert (acc.values + [e.1])[..n] == acc.values;
      assert SearchStep(acc, e, h) == Scan(acc.clauses + [h], acc.values);
      ContiguousExtend(acc.clauses, n, h);
    }
  }

  lemma {:induction false} ScanContiguous(q: Obj, i: nat, h: Clause)
    requires !h.Slotted()
    requires i <= |q|
    requires forall k :: 0 <= k < i ==> IsJobFilterKey(q[k].0)
    ensures Contiguous(ScanPrefix(q, i, h).clauses, |ScanPrefix(q, i, h).values|)
  {
    if i > 0 {
      ScanContiguous(q, i - 1, h);
      StepContiguous(ScanPrefix(q, i - 1, h), q[i - 1], h);
    }
  }

  /** The conditions without a placeholder are all the fixed `hasEquity` condition h. */
  predicate OnlyUnslotted(cs: seq<Clause>, h: Clause) {
    forall j :: 0 <= j < |cs| && !cs[j].Slotted() ==> cs[j] == h
  }

  /** Some entry among the first i is keyed k. */
  predicate KeyAmong(q: Obj, i: nat, k: string)
    requires i <= |q|
  {
    exists j :: 0 <= j < i && q[j].0 == k
  }

  lemma {:induction false} ScanUnslotted(q: Obj, i: nat, h: Clause)
    requires i <= |q|
    ensures OnlyUnslotted(ScanPrefix(q, i, h).clauses, h)
  {
    if i > 0 {
      ScanUnslotted(q, i - 1, h);
      var acc := ScanPrefix(q, i - 1, h);
      var e := q[i - 1];
      var n := |acc.values|;
      if e.0 == "title" {
        assert ScanPrefix(q, i, h).clauses == acc.clauses + [TitleLike(n + 1)];
      } else if e.0 == "minSalary" {
        assert ScanPrefix(q, i, h).clauses == acc.clauses + [SalaryAtLeast(n + 1)];
      } else if e.0 == "hasEquity" {
        assert ScanPrefix(q, i, h).clauses == acc.clauses + [h];
      } else {
        assert ScanPrefix(q, i, h).clauses == acc.clauses;
      }
    }
  }

  lemma {:induction false} ScanEquity(q: Obj, i: nat, h: Clause)
    requires i <= |q|
    requires !h.Slotted()
    ensures h in ScanPrefix(q, i, h).clauses <==> KeyAmong(q, i, "hasEquity")
  {
    if i > 0 {
      ScanEquity(q, i - 1, h);
      var acc := ScanPrefix(q, i - 1, h);
      var e := q[i - 1];
      var n := |acc.values|;
      if e.0 == "hasEquity" {
        assert ScanPrefix(q, i, h).clauses == acc.clauses + [h];
        assert KeyAmong(q, i, "hasEquity") by { assert q[i - 1].0 == "hasEquity"; }
      } else {
        if e.0 == "title" {
          assert ScanPrefix(q, i, h).clauses == acc.clauses + [TitleLike(n + 1)];
        } else if e.0 == "minSalary" {
          assert ScanPrefix(q, i, h).clauses == acc.clauses + [SalaryAtLeast(n + 1)];
        } else {
          assert ScanPrefix(q, i, h).clauses == acc.clauses;
        }
        assert KeyAmong(q, i, "hasEquity") <==> KeyAmong(q, i - 1, "hasEquity") by {
          if KeyAmong(q, i, "hasEquity") {
            var j :| 0 <= j < i && q[j].0 == "hasEquity";
            assert j < i - 1;
          }
        }
      }
    }
  }

  /** `filterValues` holds the value of every key except `hasEquity`, in the object's order. */
  lemma JobSearchValues(q: Obj)
    ensures SearchObj(q).filterValues == BoundValues(q)
  {
    ScanValues(q, |q|, EquityCondition(q));
    assert q[..|q|] == q;
  }

  /** Every key of the object is one the job search gives a condition to. */
  predicate OnlyJobFilterKeys(q: Obj) {
    forall k :: 0 <= k < |q| ==> IsJobFilterKey(q[k].0)
  }

  /**
   * Placeholder/value alignment of the job filter, whatever the keys: every
   * `$k` of a condition lies in 1..|filterValues|, no two conditions share
   * one, and `$k` binds the value of the condition's own key. When the keys
   * are drawn from title, minSalary and hasEquity, the placeholders of the
   * emitted conditions are exactly $1..$n for n bound values.
   */
  lemma JobSearchAligned(q: Obj)
    requires DistinctKeys(q)
    ensures Aligned(q, SearchObj(q).clauses, SearchObj(q).filterValues)
    ensures Increasing(SearchObj(q).clauses)
    ensures OnlyJobFilterKeys(q) ==> Contiguous(NonBlank(SearchObj(q).clauses), |SearchObj(q).filterValues|)
  {
    var h := EquityCondition(q);
    ScanAligned(q, |q|, h);
    if OnlyJobFilterKeys(q) {
      ScanContiguous(q, |q|, h);
      SlotsNonBlank(ScanPrefix(q, |q|, h).clauses);
    }
  }

  /**
   * `hasEquity` yields `equity IS NOT NULL` among the emitted conditions
   * exactly when the flag is truthy, and the only conditions without a
   * placeholder are that one (or the blank one a falsy flag leaves).
   */
  lemma JobSearchEquity(q: Obj)
    ensures EquityNotNull in NonBlank(SearchObj(q).clauses) <==> TruthyOpt(Lookup(q, "hasEquity"))
    ensures OnlyUnslotted(SearchObj(q).clauses, EquityCondition(q))
  {
    var h := EquityCondition(q);
    ScanUnslotted(q, |q|, h);
    ScanEquity(q, |q|, h);
    var cs := ScanPrefix(q, |q|, h).clauses;
    NonBlankKeeps(cs, EquityNotNull);
    if TruthyOpt(Lookup(q, "hasEquity")) && !KeyAmong(q, |q|, "hasEquity") {
      LookupMissing(q, "hasEquity");
    }
  }

  /** A non-blank condition survives the blank filter, and nothing else appears. */
  lemma {:induction false} NonBlankKeeps(cs: seq<Clause>, c: Clause)
    requires !c.Blank?
    ensures c in NonBlank(cs) <==> c in cs
  {
    if |cs| > 0 {
      NonBlankKeeps(cs[..|cs| - 1], c);
      assert cs == cs[..|cs| - 1] + [cs[|cs| - 1]];
    }
  }

  /** No filters, or a false `hasEquity`, give no condition text and no values. */
  lemma JobSearchNoFilter()
    ensures SearchObj([]).whereSqlString == "" && SearchObj([]).filterValues == []
    ensures var f := SearchObj([("hasEquity", Bool(false))]);
      f.whereSqlString == "" && f.filterValues == []
  {
    var q := [("hasEquity", Bool(false))];
    assert EquityCondition(q) == Blank;
    assert ScanPrefix(q, 1, Blank) == Scan([Blank], []);
    assert NonBlank([Blank]) == [];
  }

  /** A true `hasEquity` alone gives exactly `equity IS NOT NULL` and binds nothing. */
  lemma JobSearchEquityOnly()
    ensures var f := SearchObj([("hasEquity", Bool(true))]);
      f.whereSqlString == "equity IS NOT NULL" && f.filterValues == []
  {
    EquityOnlyScan();
    EquityOnlyText();
  }

  /** The loop over a lone true `hasEquity` emits its condition and pushes nothing. */
  lemma EquityOnlyScan()
    ensures EquityCondition([("hasEquity", Bool(true))]) == EquityNotNull
    ensures ScanPrefix([("hasEquity", Bool(true))], 1, EquityNotNull) == Scan([EquityNotNull], [])
  {
    var q := [("hasEquity", Bool(true))];
    assert Lookup(q, "hasEquity") == Some(Bool(true));
    assert ScanPrefix(q, 0, EquityNotNull) == Scan([], []);
  }

  /** The lone equity condition, joined, is its own text. */
  lemma EquityOnlyText()
    ensures JoinAnd(NonBlank([EquityNotNull])) == "equity IS NOT NULL"
  {
    assert NonBlank([EquityNotNull]) == NonBlank([]) + [EquityNotNull];
    assert RenderAll([EquityNotNull]) == ["equity IS NOT NULL"];
    JoinSmall("equity IS NOT NULL", "", " AND ");
  }

  // --------------------------------------------------------------- findAll

  /**
   * The WHERE part and parameters of `Job.findAll(filter)`; None is an
   * undefined filter, which skips `search` altogether.
   */
  function FindAll(filter: Option<Obj>): (r: ListQuery)
    ensures filter.None? ==> r == ListQuery("", [])
    ensures filter.Some? ==>
      && (r.where != "" <==> |NonBlank(SearchObj(filter.value).clauses)| > 0)
      && (r.where != "" ==> r.where == "WHERE " + SearchObj(filter.value).whereSqlString)
      && r.params == SearchObj(filter.value).filterValues
  {
    match filter
    case None => ListQuery("", [])
    case Some(q) =>
      var f := SearchObj(q);
      ListQuery(WherePart(f.whereSqlString), f.filterValues)
  }

  // ---------------------------------------------------------- repository

  /** The columns of the jobs table besides the generated id. */
  const JobColumns: set<string> := {"title", "salary", "equity", "company_handle"}

  /** The `jsToSql` mapping `update` passes. */
  const JobJsToSql: ColumnMap := map["companyHandle" := "company_handle"]

  /** The jobs table: rows by id, and the next id the id sequence hands out. */
  datatype JobStore = JobStore(rows: map<int, Row>, nextId: nat)

  /** Every row has exactly the table's columns, and every id was handed out before nextId. */
  predicate ValidStore(s: JobStore) {
    forall id :: id in s.rows ==> id < s.nextId && s.rows[id].Keys == JobColumns
  }

  /** A row as `RETURNING id, title, salary, equity, company_handle AS "companyHandle"` reports it. */
  function JobJson(id: int, row: Row): Obj {
    [("id", Int(id)), ("title", Column(row, "title")), ("salary", Column(row, "salary")),
     ("equity", Column(row, "equity")), ("companyHandle", Column(row, "company_handle"))]
  }

  /** How the database reads a bound id: the id column is an `integer`. */
  function JobKey(v: Value): Option<int> {
    IntegerInput(v)
  }

  /** The fields `create` destructures from its argument. */
  datatype JobInput = JobInput(title: Value, salary: Value, equity: Value, companyHandle: Value)

  const BadJobId: Error := BadRequest("jobId should be a number")

  /** The database's rejection of an id that is not an `integer`. */
  const BadInteger: Error := StoreError("invalid input for type integer")

  /** `Job.create(data)`: insert under the next id and report the new row. */
  function Create(store: JobStore, data: JobInput): (r: Result<(JobStore, Obj)>)
    ensures ValidStore(store) && store.nextId <= MaxInteger ==> r.Ok?
    ensures r.Ok? ==>
      && store.nextId <= MaxInteger
      && r.value.0.rows.Keys == store.rows.Keys + {store.nextId}
      && store.nextId !in store.rows
      && (forall id :: id in store.rows ==> r.value.0.rows[id] == store.rows[id])
      && r.value.1 == [("id", Int(store.nextId)), ("title", data.title), ("salary", data.salary),
                       ("equity", data.equity), ("companyHandle", data.companyHandle)]
  {
    var id := store.nextId;
    if id > MaxInteger then
      Err(StoreError("nextval: reached maximum value of sequence"))
    else if id in store.rows then
      Err(StoreError("duplicate key value violates unique constraint"))
    else
      var row := map["title" := data.title, "salary" := data.salary, "equity" := data.equity,
                     "company_handle" := data.companyHandle];
      Ok((JobStore(store.rows[id := row], id + 1), JobJson(id, row)))
  }

  /** `Job.get(jobId)`. */
  function Get(store: JobStore, jobId: string): (r: Result<Obj>)
    ensures IsNaN(jobId) ==> r == Err(BadJobId)
    ensures r.Ok? ==> exists id :: id in store.rows && JobKey(Str(jobId)) == Some(id) && r.value == JobJson(id, store.rows[id])
    ensures !IsNaN(jobId) && JobKey(Str(jobId)).None? ==> r == Err(BadInteger)
    ensures !IsNaN(jobId) && JobKey(Str(jobId)).Some? && JobKey(Str(jobId)).value in store.rows ==>
      r == Ok(JobJson(JobKey(Str(jobId)).value, store.rows[JobKey(Str(jobId)).value]))
    ensures !IsNaN(jobId) && JobKey(Str(jobId)).Some? && JobKey(Str(jobId)).value !in store.rows ==>
      r == Err(NotFound("No job: " + jobId))
  {
    if IsNaN(jobId) then Err(BadJobId)
    else
      match JobKey(Str(jobId))
      case None => Err(BadInteger)
      case Some(id) => if id in store.rows then Ok(JobJson(id, store.rows[id])) else Err(NotFound("No job: " + jobId))
  }

  /** `Job.update(jobId, data)`. */
  function Update(store: JobStore, jobId: string, data: Obj): (r: Result<(JobStore, Obj)>)
    ensures IsNaN(jobId) ==> r == Err(BadJobId)
    ensures !IsNaN(jobId) && |data| == 0 ==> r == Err(BadRequest("No data"))
    ensures r.Ok? ==> r.value.0.nextId == store.nextId && r.value.0.rows.Keys == store.rows.Keys
  {
    if IsNaN(jobId) then Err(BadJobId)
    else
      var pu :- SqlForPartialUpdate(data, JobJsToSql);
      var ex :- ExecuteUpdate(JobColumns, store.rows, JobKey, BuildUpdate("jobs", "id", pu, Str(jobId)));
      match ex
      case NoRow => Err(NotFound("No job with id " + jobId))
      case Updated(id, row) => Ok((JobStore(store.rows[id := row], store.nextId), JobJson(id, row)))
  }

  /** `Job.remove(jobId)`. */
  function Remove(store: JobStore, jobId: string): (r: Result<JobStore>)
    ensures IsNaN(jobId) ==> r == Err(BadJobId)
    ensures r.Ok? ==> exists id :: id in store.rows && JobKey(Str(jobId)) == Some(id) && r.value.rows == store.rows - {id}
    ensures !IsNaN(jobId) && JobKey(Str(jobId)).None? ==> r == Err(BadInteger)
    ensures !IsNaN(jobId) && JobKey(Str(jobId)).Some? && JobKey(Str(jobId)).value in store.rows ==>
      r == Ok(store.(rows := store.rows - {JobKey(Str(jobId)).value}))
    ensures !IsNaN(jobId) && JobKey(Str(jobId)).Some? && JobKey(Str(jobId)).value !in store.rows ==>
      r == Err(NotFound("No job: " + jobId))
  {
    if IsNaN(jobId) then Err(BadJobId)
    else
      match JobKey(Str(jobId))
      case None => Err(BadInteger)
      case Some(id) => if id in store.rows then Ok(store.(rows := store.rows - {id})) else Err(NotFound("No job: " + jobId))
  }

  /** The `isNaN` guard answers before the table is consulted: the table's content cannot matter. */
  lemma NaNIdRejectedBeforeStore(s1: JobStore, s2: JobStore, jobId: string, data: Obj)
    requires IsNaN(jobId)
    ensures Get(s1, jobId) == Get(s2, jobId) == Err(BadJobId)
    ensures Update(s1, jobId, data) == Update(s2, jobId, data) == Err(BadJobId)
    ensures Remove(s1, jobId) == Remove(s2, jobId) == Err(BadJobId)
  {
  }

  /**
   * An id printed as a numeral passes the `isNaN` guard; the database reads
   * it back as itself when it fits the `integer` type and rejects it otherwise.
   */
  lemma NumeralId(id: nat)
    ensures !IsNaN(NatToString(id))
    ensures JobKey(Str(NatToString(id))) == if id <= MaxInteger then Some(id) else None
  {
    StringToNumberOfNat(id);
    IntegerInputOfNumeral(id);
  }

  /** Fetching a freshly created job returns what `create` reported. */
  lemma CreateThenGet(store: JobStore, data: JobInput)
    requires ValidStore(store) && store.nextId <= MaxInteger
    ensures var (s', json) := Create(store, data).value;
      Get(s', NatToString(store.nextId)) == Ok(json)
  {
    NumeralId(store.nextId);
  }

  /** Once removed, a job is not found again. */
  lemma RemoveThenGet(store: JobStore, jobId: string)
    requires Remove(store, jobId).Ok?
    ensures Get(Remove(store, jobId).value, jobId) == Err(NotFound("No job: " + jobId))
  {
  }

  /** Updating an id with no row is NotFound, never a silent success. */
  lemma UpdateMissingIsNotFound(store: JobStore, jobId: string, data: Obj)
    requires !IsNaN(jobId) && JobKey(Str(jobId)).Some? && JobKey(Str(jobId)).value !in store.rows
    requires |data| > 0 && ValidTargets(JobColumns, data, JobJsToSql)
    ensures Update(store, jobId, data) == Err(NotFound("No job with id " + jobId))
  {
    UpdateStatementEffect(JobColumns, store.rows, JobKey, data, JobJsToSql, "jobs", "id", Str(jobId));
  }

  /**
   * A successful update rewrites only the row under the id: each supplied
   * field's column takes its value, every other column (the company handle
   * among them, unless supplied) keeps its value, and every other row is untouched.
   */
  lemma UpdateEffect(store: JobStore, jobId: string, data: Obj)
    requires ValidStore(store)
    requires !IsNaN(jobId) && JobKey(Str(jobId)).Some? && JobKey(Str(jobId)).value in store.rows
    requires |data| > 0 && ValidTargets(JobColumns, data, JobJsToSql)
    ensures Update(store, jobId, data).Ok?
    ensures Update(store, jobId, data).value.0.rows
      == store.rows[JobKey(Str(jobId)).value := Update(store, jobId, data).value.0.rows[JobKey(Str(jobId)).value]]
    ensures PatchedRow(store.rows[JobKey(Str(jobId)).value],
                       Update(store, jobId, data).value.0.rows[JobKey(Str(jobId)).value], data, JobJsToSql)
    ensures Update(store, jobId, data).value.1
      == JobJson(JobKey(Str(jobId)).value, Update(store, jobId, data).value.0.rows[JobKey(Str(jobId)).value])
  {
    UpdateStatementEffect(JobColumns, store.rows, JobKey, data, JobJsToSql, "jobs", "id", Str(jobId));
    var id := JobKey(Str(jobId)).value;
    var pu := SqlForPartialUpdate(data, JobJsToSql).value;
    var row := ApplyAssignments(store.rows[id], pu.fragments, pu.values + [Str(jobId)]);
    assert Update(store, jobId, data) == Ok((JobStore(store.rows[id := row], store.nextId), JobJson(id, row)));
  }

  /** `create` keeps the table well formed. */
  lemma CreatePreservesValidStore(store: JobStore, data: JobInput)
    requires ValidStore(store)
    ensures Create(store, data).Ok? ==> ValidStore(Create(store, data).value.0)
  {
    if Create(store, data).Ok? {
      assert Create(store, data).value.0.rows[store.nextId].Keys == JobColumns;
    }
  }

  /** `remove` keeps the table well formed. */
  lemma RemovePreservesValidStore(store: JobStore, jobId: string)
    requires ValidStore(store)
    ensures Remove(store, jobId).Ok? ==> ValidStore(Remove(store, jobId).value)
  {
  }

  /** Replacing a stored row by one on the table's columns keeps the table well formed. */
  lemma PatchKeepsValidStore(store: JobStore, id: int, row: Row)
    requires ValidStore(store) && id in store.rows && row.Keys == JobColumns
    ensures ValidStore(JobStore(store.rows[id := row], store.nextId))
  {
  }

  /** `update` keeps the table well formed: it never adds or drops a column or a row. */
  lemma UpdatePreservesValidStore(store: JobStore, jobId: string, data: Obj)
    requires ValidStore(store)
    ensures Update(store, jobId, data).Ok? ==> ValidStore(Update(store, jobId, data).value.0)
  {
    if Update(store, jobId, data).Ok? {
      var pu := SqlForPartialUpdate(data, JobJsToSql).value;
      var ex := ExecuteUpdate(JobColumns, store.rows, JobKey, BuildUpdate("jobs", "id", pu, Str(jobId)));
      assert ex.Ok? && ex.value.Updated?;
      assert Update(store, jobId, data).value.0 == JobStore(store.rows[ex.value.key := ex.value.row], store.nextId);
      PatchKeepsValidStore(store, ex.value.key, ex.value.row);
    }
  }
}

=== FILE: jsvalues.dfy ===
/**
 * The JavaScript values the core reads: JSON and query-string primitives,
 * objects as ordered entry lists, truthiness, `Number()`, loose equality with
 * a boolean, `String.prototype.trim` and `Array.prototype.join`.
 */
module JsValues {
  import opened Results
  import opened Decimal

  /** The primitive values a request body, a query string or a token claim carries. */
  datatype Value = Str(s: string) | Int(i: int) | Bool(b: bool) | Null

  /** A JavaScript object: its own enumerable entries in `for…in` order. */
  type Entry = (string, Value)
  type Obj = seq<Entry>

  /** The property names of a JavaScript object are distinct. */
  predicate DistinctKeys(o: Obj) {
    forall i, j :: 0 <= i < j < |o| ==> o[i].0 != o[j].0
  }

  /** `o[k]`, where None stands for `undefined`. */
  function Lookup(o: Obj, k: string): Option<Value> {
    if |o| == 0 then None else if o[0].0 == k then Some(o[0].1) else Lookup(o[1..], k)
  }

  /** The value found under a key is the value of the entry holding that key. */
  lemma {:induction false} LookupAt(o: Obj, i: nat)
    requires DistinctKeys(o)
    requires i < |o|
    ensures Lookup(o, o[i].0) == Some(o[i].1)
    decreases i
  {
    if i > 0 {
      assert o[0].0 != o[i].0;
      assert o[1..][i - 1] == o[i];
      LookupAt(o[1..], i - 1);
    }
  }

  /** A key held by no entry reads as `undefined`. */
  lemma {:induction false} LookupMissing(o: Obj, k: string)
    requires forall i :: 0 <= i < |o| ==> o[i].0 != k
    ensures Lookup(o, k) == None
    decreases |o|
  {
    if |o| > 0 {
      assert forall i :: 0 <= i < |o[1..]| ==> o[1..][i].0 == o[i + 1].0;
      LookupMissing(o[1..], k);
    }
  }

  /** JavaScript truthiness: "", 0, false and null are falsy. */
  predicate Truthy(v: Value)
    ensures !Truthy(v) <==> v in {Str(""), Int(0), Bool(false), Null}
  {
    match v
    case Str(s) => s != ""
    case Int(i) => i != 0
    case Bool(b) => b
    case Null => false
  }

  /** Truthiness of a property read, where `undefined` is falsy. */
  predicate TruthyOpt(v: Option<Value>) {
    v.Some? && Truthy(v.value)
  }

  /** The characters `String.prototype.trim` and `Number()` treat as white space. */
  predicate IsWhitespace(c: char) {
    || c == ' ' || c == '\t' || c == '\n' || c == '\r' || c == '\U{B}' || c == '\U{C}'
    || c == '\U{A0}' || c == '\U{1680}' || ('\U{2000}' <= c <= '\U{200A}')
    || c == '\U{2028}' || c == '\U{2029}' || c == '\U{202F}' || c == '\U{205F}'
    || c == '\U{3000}' || c == '\U{FEFF}'
  }

  /** s without its leading white space. */
  function TrimStart(s: string): (r: string)
    ensures |r| <= |s| && r == s[|s| - |r|..]
    ensures r == [] || !IsWhitespace(r[0])
  {
    if |s| > 0 && IsWhitespace(s[0]) then TrimStart(s[1..]) else s
  }

  /** Everything `TrimStart` drops is white space. */
  lemma {:induction false} TrimStartDropsWhitespace(s: string)
    ensures forall k :: 0 <= k < |s| - |TrimStart(s)| ==> IsWhitespace(s[k])
    decreases |s|
  {
    if |s| > 0 && IsWhitespace(s[0]) {
      TrimStartDropsWhitespace(s[1..]);
      assert forall k :: 1 <= k < |s| ==> s[k] == s[1..][k - 1];
    }
  }

  /** s without its trailing white space. */
  function TrimEnd(s: string): (r: string)
    ensures |r| <= |s| && r == s[..|r|]
    ensures r == [] || !IsWhitespace(r[|r| - 1])
  {
    if |s| > 0 && IsWhitespace(s[|s| - 1]) then TrimEnd(s[..|s| - 1]) else s
  }

  /** Everything `TrimEnd` drops is white space. */
  lemma {:induction false} TrimEndDropsWhitespace(s: string)
    ensures forall k :: |TrimEnd(s)| <= k < |s| ==> IsWhitespace(s[k])
    decreases |s|
  {
    if |s| > 0 && IsWhitespace(s[|s| - 1]) {
      TrimEndDropsWhitespace(s[..|s| - 1]);
      assert forall k :: 0 <= k < |s| - 1 ==> s[k] == s[..|s| - 1][k];
    }
  }

  /** Where `s.trim()` starts in s. */
  function TrimOffset(s: string): nat {
    |s| - |TrimStart(s)|
  }

  /** `s.trim()`: the slice of s between its leading and its trailing white space. */
  function Trim(s: string): (r: string)
    ensures TrimOffset(s) + |r| <= |s| && r == s[TrimOffset(s)..TrimOffset(s) + |r|]
    ensures r == [] || (!IsWhitespace(r[0]) && !IsWhitespace(r[|r| - 1]))
  {
    var t := TrimStart(s);
    var r := TrimEnd(t);
    PrefixOfSuffix(s, TrimOffset(s), |r|);
    r
  }

  /** The first n elements of the suffix from a are the slice from a to a + n. */
  lemma PrefixOfSuffix<T>(s: seq<T>, a: nat, n: nat)
    requires a + n <= |s|
    ensures s[a..][..n] == s[a..a + n]
  {
  }

  /** Everything `trim` removes, before and after the kept part, is white space. */
  lemma TrimRemovesOnlyWhitespace(s: string)
    ensures forall k :: 0 <= k < TrimOffset(s) ==> IsWhitespace(s[k])
    ensures forall k :: TrimOffset(s) + |Trim(s)| <= k < |s| ==> IsWhitespace(s[k])
  {
    var t := TrimStart(s);
    var off := TrimOffset(s);
    var r := TrimEnd(t);
    TrimStartDropsWhitespace(s);
    TrimEndDropsWhitespace(t);
    assert Trim(s) == r;
    assert t == s[off..];
    forall k | off + |r| <= k < |s| ensures IsWhitespace(s[k]) {
      assert |r| <= k - off < |t|;
      assert s[k] == t[k - off];
    }
  }

  /** Trimming a trimmed string changes nothing. */
  lemma TrimIdempotent(s: string)
    ensures Trim(Trim(s)) == Trim(s)
  {
    var t := Trim(s);
    if t != [] {
      assert TrimStart(t) == t;
      assert TrimEnd(t) == t;
    }
  }

  /** No digit is white space. */
  lemma DigitNotWhitespace(c: char)
    requires IsDigit(c)
    ensures !IsWhitespace(c)
  {
  }

  /** Text that starts and ends with something other than white space is its own trim. */
  lemma TrimNothing(s: string)
    requires |s| > 0 && !IsWhitespace(s[0]) && !IsWhitespace(s[|s| - 1])
    ensures Trim(s) == s
  {
    assert TrimStart(s) == s;
  }

  /** A numeral has no white space to trim. */
  lemma TrimDigits(s: string)
    requires |s| >= 1 && AllDigits(s)
    ensures Trim(s) == s
  {
    assert !IsWhitespace(s[0]) by { DigitNotWhitespace(s[0]); }
    assert !IsWhitespace(s[|s| - 1]) by { DigitNotWhitespace(s[|s| - 1]); }
    TrimNothing(s);
  }

  /** `Number(s)` for a string: blank text is 0, otherwise a signed decimal integer; None is NaN. */
  function StringToNumber(s: string): (r: Option<int>)
    ensures Trim(s) == "" ==> r == Some(0)
    ensures r.Some? && r.value < 0 ==> Trim(s)[0] == '-'
  {
    var t := Trim(s);
    if t == "" then Some(0) else ParseInteger(t)
  }

  /** `Number(v)`; None as argument is `undefined`, None as result is NaN. */
  function ToNumber(v: Option<Value>): (r: Option<int>)
    ensures v.None? ==> r.None?
    ensures r.None? ==> v.None? || v.value.Str?
  {
    match v
    case None => None
    case Some(Null) => Some(0)
    case Some(Bool(b)) => Some(if b then 1 else 0)
    case Some(Int(i)) => Some(i)
    case Some(Str(s)) => StringToNumber(s)
  }

  /** `isNaN(s)` for a string argument. */
  predicate IsNaN(s: string)
    ensures IsNaN(s) ==> Trim(s) != ""
    ensures |s| > 0 && AllDigits(s) ==> !IsNaN(s)
  {
    DigitsAreNumbers(s);
    StringToNumber(s).None?
  }

  /** A run of digits is never NaN. */
  lemma DigitsAreNumbers(s: string)
    ensures |s| > 0 && AllDigits(s) ==> StringToNumber(s).Some?
  {
    if |s| > 0 && AllDigits(s) {
      TrimDigits(s);
      ParseIntegerOfDigits(s);
    }
  }

  /** Truthiness of a number: NaN and 0 are falsy. */
  predicate NumberTruthy(n: Option<int>) {
    n.Some? && n.value != 0
  }

  /**
   * `v == b` for a boolean b: the boolean compares as the number 1 or 0;
   * `undefined` and `null` equal neither.
   */
  predicate LooseEqualsBool(v: Option<Value>, b: bool)
    ensures LooseEqualsBool(v, b) ==> v.Some? && v.value != Null && ToNumber(v) == Some(if b then 1 else 0)
  {
    match v
    case None => false
    case Some(Null) => false
    case Some(Bool(x)) => x == b
    case Some(Int(i)) => i == (if b then 1 else 0)
    case Some(Str(s)) => StringToNumber(s) == Some(if b then 1 else 0)
  }

  /** A numeral in a string reads back as the number it prints. */
  lemma StringToNumberOfNat(n: nat)
    ensures StringToNumber(NatToString(n)) == Some(n)
  {
    TrimDigits(NatToString(n));
    ParseIntegerOfNat(n);
  }

  /**
   * Text that starts with neither white space, a sign, a digit, a point nor
   * the `I` of `Infinity` reads as NaN.
   */
  lemma WordIsNaN(s: string)
    requires |s| > 0
    requires !IsWhitespace(s[0]) && !IsDigit(s[0]) && s[0] != '-' && s[0] != '+'
    requires s[0] != '.' && s[0] != 'I'
    ensures IsNaN(s)
  {
    assert TrimStart(s) == s;
    var t := TrimEnd(s);
    TrimEndDropsWhitespace(s);
    assert t[0] == s[0];
    assert !AllDigits(t);
  }

  /** `Number` trims its argument first, so surrounding white space never changes the number. */
  lemma NumberIgnoresSurroundingSpace(s: string)
    ensures StringToNumber(Trim(s)) == StringToNumber(s)
  {
    TrimIdempotent(s);
  }

  /** A signed numeral reads as the signed number. */
  lemma SignedNumeral(n: nat)
    ensures StringToNumber("-" + NatToString(n)) == Some(-(n as int))
    ensures StringToNumber("+" + NatToString(n)) == Some(n)
  {
    var d := NatToString(n);
    ParseNatToString(n);
    assert IsDigit(d[|d| - 1]);
    assert ("-" + d)[1..] == d;
    assert ("+" + d)[1..] == d;
    TrimNothing("-" + d);
    TrimNothing("+" + d);
  }

  /**
   * Outside strings, a value is truthy exactly when `Number` of it is; the
   * string "0" is where the two part ways.
   */
  lemma TruthinessAgreesWithNumber(v: Value)
    ensures !v.Str? ==> (Truthy(v) <==> NumberTruthy(ToNumber(Some(v))))
    ensures Truthy(Str("0")) && !NumberTruthy(ToNumber(Some(Str("0"))))
  {
    StringToNumberOfNat(0);
  }

  /**
   * Loose equality with a boolean compares numbers: a present, non-null value
   * equals b exactly when `Number` of it is 1 or 0, so no value equals both.
   */
  lemma LooseEqualsIsNumeric(v: Option<Value>, b: bool)
    ensures v.Some? && v.value != Null ==> (LooseEqualsBool(v, b) <==> ToNumber(v) == Some(if b then 1 else 0))
    ensures v.None? || v == Some(Null) ==> !LooseEqualsBool(v, b)
    ensures !(LooseEqualsBool(v, true) && LooseEqualsBool(v, false))
  {
  }

  /** `parts.join(sep)`. */
  function Join(parts: seq<string>, sep: string): string {
    if |parts| == 0 then ""
    else if |parts| == 1 then parts[0]
    else parts[0] + sep + Join(parts[1..], sep)
  }

  /** Joining one part gives the part; joining two puts the separator between them. */
  lemma JoinSmall(a: string, b: string, sep: string)
    ensures Join([a], sep) == a
    ensures Join([a, b], sep) == a + sep + b
  {
    assert [a, b][1..] == [b];
  }

  /** Joining non-empty parts is empty exactly when there are no parts. */
  lemma JoinEmpty(parts: seq<string>, sep: string)
    requires forall k :: 0 <= k < |parts| ==> parts[k] != ""
    ensures Join(parts, sep) == "" <==> |parts| == 0
  {
    if |parts| > 0 {
      assert |Join(parts, sep)| >= |parts[0]|;
    }
  }
}

=== FILE: query.dfy ===
/**
 * middleware/query.js: `authenticateQuery`, the guard in front of the
 * company listing. It checks the query keys against an allow-list, then
 * that a given `minEmployees` is numeric, then that the two bounds do not
 * contradict each other; the first failing check decides the error.
 */
module QueryMiddleware {
  import opened Results
  import opened Decimal
  import opened JsValues
  import opened Filters
  import CompanyModel

  /** The `validQuery` allow-list. */
  predicate IsValidQueryKey(k: string) {
    k == "nameLike" || k == "minEmployees" || k == "maxEmployees"
  }

  /** Every key of the query is on the allow-list. */
  predicate AllKeysValid(q: Obj) {
    forall k :: 0 <= k < |q| ==> IsValidQueryKey(q[k].0)
  }

  /** The key the allow-list loop throws on: the first one, in iteration order, that is not allowed. */
  function FirstInvalidKey(q: Obj): (r: Option<string>)
    ensures r.None? <==> AllKeysValid(q)
    ensures r.Some? ==> exists k :: (0 <= k < |q| && q[k].0 == r.value && !IsValidQueryKey(r.value)
      && forall j :: 0 <= j < k ==> IsValidQueryKey(q[j].0))
    decreases |q|
  {
    if |q| == 0 then None
    else if !IsValidQueryKey(q[0].0) then Some(q[0].0)
    else
      var rest := FirstInvalidKey(q[1..]);
      assert forall k :: 1 <= k < |q| ==> q[k] == q[1..][k - 1];
      if rest.Some? then
        var k :| 0 <= k < |q[1..]| && q[1..][k].0 == rest.value && !IsValidQueryKey(rest.value)
          && forall j :: 0 <= j < k ==> IsValidQueryKey(q[1..][j].0);
        assert q[k + 1].0 == rest.value;
        assert forall j :: 0 <= j < k + 1 ==> IsValidQueryKey(q[j].0) by {
          forall j | 0 <= j < k + 1 ensures IsValidQueryKey(q[j].0) {
            if j > 0 { assert q[j] == q[1..][j - 1]; }
          }
        }
        rest
      else
        rest
  }

  const NotNumbers: string := "minEmployees and maxEmployees must be numbers"
  const MinAboveMax: string := "value for minEmployees should be equal to or less than maxEmployees"

  function InvalidKeyMessage(key: string): string {
    key + " is an invalid query string"
  }

  /** `Number(req.query.minEmployees)` and `Number(req.query.maxEmployees)`; None is NaN. */
  function MinEmployees(q: Obj): Option<int> {
    ToNumber(Lookup(q, "minEmployees"))
  }

  function MaxEmployees(q: Obj): Option<int> {
    ToNumber(Lookup(q, "maxEmployees"))
  }

  /** The numeric check: a truthy `minEmployees` whose `Number()` is NaN. */
  predicate MinNotNumeric(q: Obj) {
    MinEmployees(q).None? && TruthyOpt(Lookup(q, "minEmployees"))
  }

  /** The range check: both bounds are truthy numbers and the minimum exceeds the maximum. */
  predicate BoundsContradict(q: Obj) {
    NumberTruthy(MinEmployees(q)) && NumberTruthy(MaxEmployees(q)) && MinEmployees(q).value > MaxEmployees(q).value
  }

  /** `authenticateQuery(req, res, next)`; None is a falsy `req.query`. */
  function AuthenticateQuery(query: Option<Obj>): (r: Outcome)
    ensures query.None? ==> r == Next
    ensures r.Throw? ==> r.error.BadRequest?
    ensures r == Next ==> query.None? || AllKeysValid(query.value)
  {
    match query
    case None => Next
    case Some(q) =>
      match FirstInvalidKey(q)
      case Some(key) => Throw(BadRequest(InvalidKeyMessage(key)))
      case None =>
        if MinNotNumeric(q) then Throw(BadRequest(NotNumbers))
        else if BoundsContradict(q) then Throw(BadRequest(MinAboveMax))
        else Next
  }

  /**
   * A present query passes exactly when all its keys are allowed, a truthy
   * minimum is numeric, and two truthy numeric bounds are in order.
   */
  lemma AdmittedQueries(q: Obj)
    ensures AuthenticateQuery(Some(q)) == Next <==>
      && AllKeysValid(q)
      && (TruthyOpt(Lookup(q, "minEmployees")) ==> MinEmployees(q).Some?)
      && (NumberTruthy(MinEmployees(q)) && NumberTruthy(MaxEmployees(q)) ==> MinEmployees(q).value <= MaxEmployees(q).value)
  {
  }

  /** Every rejection is a BadRequest carrying one of the three messages. */
  lemma RejectionsAreBadRequests(query: Option<Obj>)
    ensures AuthenticateQuery(query).Throw? ==>
      && AuthenticateQuery(query).error.BadRequest?
      && (|| (exists key :: AuthenticateQuery(query).error.message == InvalidKeyMessage(key))
          || AuthenticateQuery(query).error.message == NotNumbers
          || AuthenticateQuery(query).error.message == MinAboveMax)
  {
    if query.Some? && FirstInvalidKey(query.value).Some? {
      var key := FirstInvalidKey(query.value).value;
      assert AuthenticateQuery(query).error.message == InvalidKeyMessage(key);
    }
  }

  /**
   * The allow-list is checked first: a disallowed key is reported, naming
   * the first disallowed key, whatever the bounds hold.
   */
  lemma AllowListFirst(q: Obj)
    requires !AllKeysValid(q)
    ensures exists k :: (0 <= k < |q| && !IsValidQueryKey(q[k].0)
      && (forall j :: 0 <= j < k ==> IsValidQueryKey(q[j].0))
      && AuthenticateQuery(Some(q)) == Throw(BadRequest(InvalidKeyMessage(q[k].0))))
  {
    var key := FirstInvalidKey(q).value;
    var k :| 0 <= k < |q| && q[k].0 == key && !IsValidQueryKey(key) && forall j :: 0 <= j < k ==> IsValidQueryKey(q[j].0);
    assert AuthenticateQuery(Some(q)) == Throw(BadRequest(InvalidKeyMessage(q[k].0)));
  }

  /** The numeric check comes before the range check. */
  lemma NumericBeforeRange(q: Obj)
    requires AllKeysValid(q)
    requires MinNotNumeric(q)
    ensures AuthenticateQuery(Some(q)) == Throw(BadRequest(NotNumbers))
  {
  }

  /** Only the minimum is checked for numeric form: a non-numeric maximum alone passes. */
  lemma NonNumericMaxPasses(s: string)
    requires IsNaN(s)
    ensures AuthenticateQuery(Some([("maxEmployees", Str(s))])) == Next
  {
    var q := [("maxEmployees", Str(s))];
    assert Lookup(q, "minEmployees") == None;
    assert FirstInvalidKey(q) == None;
  }

  /**
   * A bound whose number is 0 is falsy, so the range check never fires: an
   * allowed query then fails the numeric check or passes.
   */
  lemma ZeroBoundSkipsRange(q: Obj)
    requires AllKeysValid(q)
    requires MinEmployees(q) == Some(0) || MaxEmployees(q) == Some(0)
    ensures AuthenticateQuery(Some(q)) == if MinNotNumeric(q) then Throw(BadRequest(NotNumbers)) else Next
  {
  }

  /** A key off the allow-list is named in the error. */
  lemma InvalidKeyExample()
    ensures AuthenticateQuery(Some([("badQueryString", Str("hello"))]))
      == Throw(BadRequest("badQueryString is an invalid query string"))
  {
    var q := [("badQueryString", Str("hello"))];
    assert !IsValidQueryKey("badQueryString");
    assert FirstInvalidKey(q) == Some("badQueryString");
    assert AuthenticateQuery(Some(q)) == Throw(BadRequest(InvalidKeyMessage("badQueryString")));
    ExampleMessage();
  }

  lemma ExampleMessage()
    ensures InvalidKeyMessage("badQueryString") == "badQueryString is an invalid query string"
  {
  }

  /** A word as minimum is rejected as not a number. */
  lemma NotNumericExample()
    ensures AuthenticateQuery(Some([("minEmployees", Str("string")), ("maxEmployees", Int(600))]))
      == Throw(BadRequest("minEmployees and maxEmployees must be numbers"))
  {
    var q := [("minEmployees", Str("string")), ("maxEmployees", Int(600))];
    WordIsNaN("string");
    assert FirstInvalidKey(q) == None;
    assert Lookup(q, "minEmployees") == Some(Str("string"));
    assert MinNotNumeric(q);
  }

  /**
   * A minimum above the maximum is rejected, with the code's message (the
   * accompanying test expects the message without the leading "value for ").
   */
  lemma MinAboveMaxExample()
    ensures AuthenticateQuery(Some([("minEmployees", Int(1000)), ("maxEmployees", Int(600))]))
      == Throw(BadRequest("value for minEmployees should be equal to or less than maxEmployees"))
  {
    var q := [("minEmployees", Int(1000)), ("maxEmployees", Int(600))];
    assert FirstInvalidKey(q) == None;
    assert Lookup(q, "minEmployees") == Some(Int(1000));
    assert Lookup(q, "maxEmployees") == Some(Int(600));
    assert !MinNotNumeric(q) && BoundsContradict(q);
  }

  /**
   * What the guard buys the company search behind it: an admitted query
   * gets one condition per key, numbered $1..$n in key order, each bound to
   * the value of its own key.
   */
  lemma AdmittedQueryGivesContiguousSearch(q: Obj)
    requires DistinctKeys(q)
    requires AuthenticateQuery(Some(q)) == Next
    ensures |CompanyModel.SearchObj(q).clauses| == |q|
    ensures Contiguous(CompanyModel.SearchObj(q).clauses, |CompanyModel.SearchObj(q).filterValues|)
    ensures Aligned(q, CompanyModel.SearchObj(q).clauses, CompanyModel.SearchObj(q).filterValues)
  {
    assert CompanyModel.OnlyCompanyFilterKeys(q, |q|);
    CompanyModel.CompanySearchAligned(q);
  }
}

=== FILE: results.dfy ===
/** Option, Result and the middleware outcome shared by every part of the model. */
module Results {

  datatype Option<+T> = None | Some(value: T)

  /**
   * The errors the core raises. BadRequest, NotFound and Unauthorized are the
   * repository's own error classes; StoreError stands for a statement that the
   * database engine itself rejects.
   */
  datatype Error =
    | BadRequest(message: string)
    | NotFound(message: string)
    | Unauthorized(message: string)
    | StoreError(message: string)

  /** A thrown error or a returned value; usable with `:-`. */
  datatype Result<+T> = Ok(value: T) | Err(error: Error) {

    predicate IsFailure() {
      Err?
    }

    function PropagateFailure<U>(): Result<U>
      requires Err?
    {
      Err(error)
    }

    function Extract(): T
      requires Ok?
    {
      value
    }
  }

  /** What an Express middleware does with a request: call `next()` or throw. */
  datatype Outcome = Next | Throw(error: Error)
}

=== FILE: rows.dfy ===
/**
 * The stored rows and the keyed UPDATE both repositories issue:
 * `UPDATE <table> SET <setCols> WHERE <key> = $(|values|+1)` bound to
 * `[...values, key]`. A small interpreter reads such a statement the way the
 * database binds it, so the placeholder layout can be checked against its effect.
 */
module Rows {
  import opened Results
  import opened Decimal
  import opened JsValues
  import opened SqlHelpers

  /** A stored row: column name to value. */
  type Row = map<string, Value>

  /** A column read from a row; a column the row lacks reads as null. */
  function Column(row: Row, c: string): Value {
    if c in row then row[c] else Null
  }

  /** An UPDATE statement: its text, its SET assignments, the key's placeholder and the bound parameters. */
  datatype UpdateStatement = UpdateStatement(sql: string, assignments: seq<SetFragment>, keySlot: nat, params: seq<Value>)

  /** The statement `update` sends: the key is bound to the placeholder after the last SET value. */
  function BuildUpdate(table: string, keyColumn: string, pu: PartialUpdate, key: Value): (st: UpdateStatement)
    ensures st.keySlot == |pu.values| + 1 && |st.params| == st.keySlot
    ensures st.params[st.keySlot - 1] == key && st.params[..|pu.values|] == pu.values
    ensures st.assignments == pu.fragments
  {
    var keySlot := |pu.values| + 1;
    UpdateStatement(
      "UPDATE " + table + " SET " + pu.setCols + " WHERE " + keyColumn + " = $" + NatToString(keySlot),
      pu.fragments, keySlot, pu.values + [key])
  }

  /**
   * The layout of a keyed UPDATE for an update object: the key sits at
   * `$(|data|+1)`, the last parameter, and every SET placeholder comes
   * before it and binds the value of its own field.
   */
  predicate KeyedLayout(st: UpdateStatement, data: Obj, jsToSql: ColumnMap, key: Value) {
    && st.keySlot == |data| + 1
    && |st.params| == st.keySlot
    && st.params[st.keySlot - 1] == key
    && |st.assignments| == |data|
    && (forall i :: 0 <= i < |data| ==>
          && st.assignments[i].column == ColumnName(jsToSql, data[i].0)
          && 1 <= st.assignments[i].slot < st.keySlot
          && st.params[st.assignments[i].slot - 1] == data[i].1)
  }

  /** The statement `update` builds from a non-empty update object has the keyed layout. */
  lemma KeyBoundAfterValues(data: Obj, jsToSql: ColumnMap, table: string, keyColumn: string, key: Value)
    requires |data| > 0
    ensures KeyedLayout(BuildUpdate(table, keyColumn, SqlForPartialUpdate(data, jsToSql).value, key), data, jsToSql, key)
    ensures BuildUpdate(table, keyColumn, SqlForPartialUpdate(data, jsToSql).value, key).params[..|data|]
      == SqlForPartialUpdate(data, jsToSql).value.values
  {
  }

  predicate DistinctColumns(fs: seq<SetFragment>) {
    forall i, j :: 0 <= i < j < |fs| ==> fs[i].column != fs[j].column
  }

  predicate ColumnsIn(schema: set<string>, fs: seq<SetFragment>) {
    forall i :: 0 <= i < |fs| ==> fs[i].column in schema
  }

  predicate SlotsWithin(fs: seq<SetFragment>, n: nat) {
    forall i :: 0 <= i < |fs| ==> 1 <= fs[i].slot <= n
  }

  /** Placeholder `$k` occurs in the statement, as the key or in some assignment. */
  predicate Referenced(st: UpdateStatement, k: nat) {
    k == st.keySlot || exists i :: 0 <= i < |st.assignments| && st.assignments[i].slot == k
  }

  /** Every parameter is referenced by a placeholder. */
  predicate ParamsUsed(st: UpdateStatement) {
    forall k: nat :: 1 <= k <= |st.params| ==> Referenced(st, k)
  }

  /** Runs the SET list on one row, `$n` reading `params[n-1]`. */
  function ApplyAssignments(row: Row, fs: seq<SetFragment>, params: seq<Value>): Row
    requires SlotsWithin(fs, |params|)
    decreases |fs|
  {
    if |fs| == 0 then row
    else ApplyAssignments(row[fs[0].column := params[fs[0].slot - 1]], fs[1..], params)
  }

  /** Some assignment of the list sets column c. */
  predicate Assigns(fs: seq<SetFragment>, c: string) {
    exists i :: 0 <= i < |fs| && fs[i].column == c
  }

  /**
   * `after` is `before` run through the SET list: each assigned column holds
   * its parameter, the columns are those of `before` plus the assigned ones,
   * and every column not assigned keeps its value.
   */
  ghost predicate Assigned(before: Row, after: Row, fs: seq<SetFragment>, params: seq<Value>)
    requires SlotsWithin(fs, |params|)
  {
    && (forall i :: 0 <= i < |fs| ==> fs[i].column in after && after[fs[i].column] == params[fs[i].slot - 1])
    && (forall c :: c in after <==> c in before || Assigns(fs, c))
    && (forall c :: c in before && !Assigns(fs, c) ==> after[c] == before[c])
  }

  /** The tail of a SET list assigns a column only if the whole list does. */
  lemma AssignsTail(fs: seq<SetFragment>, c: string)
    requires |fs| > 0
    ensures Assigns(fs, c) <==> fs[0].column == c || Assigns(fs[1..], c)
  {
    if Assigns(fs[1..], c) {
      var i :| 0 <= i < |fs[1..]| && fs[1..][i].column == c;
      assert fs[i + 1].column == c;
    }
    if Assigns(fs, c) && fs[0].column != c {
      var i :| 0 <= i < |fs| && fs[i].column == c;
      assert fs[1..][i - 1].column == c;
    }
  }

  /** Running a SET list adds exactly the assigned columns. */
  lemma {:induction false} ApplyColumns(row: Row, fs: seq<SetFragment>, params: seq<Value>, c: string)
    requires SlotsWithin(fs, |params|)
    ensures c in ApplyAssignments(row, fs, params) <==> c in row || Assigns(fs, c)
    decreases |fs|
  {
    if |fs| > 0 {
      var row' := row[fs[0].column := params[fs[0].slot - 1]];
      assert ApplyAssignments(row, fs, params) == ApplyAssignments(row', fs[1..], params);
      ApplyColumns(row', fs[1..], params, c);
      AssignsTail(fs, c);
    }
  }

  /** Running a SET list leaves a column no assignment names as it was. */
  lemma {:induction false} ApplyKeeps(row: Row, fs: seq<SetFragment>, params: seq<Value>, c: string)
    requires SlotsWithin(fs, |params|)
    requires c in row && !Assigns(fs, c)
    ensures c in ApplyAssignments(row, fs, params) && ApplyAssignments(row, fs, params)[c] == row[c]
    decreases |fs|
  {
    if |fs| > 0 {
      var row' := row[fs[0].column := params[fs[0].slot - 1]];
      assert ApplyAssignments(row, fs, params) == ApplyAssignments(row', fs[1..], params);
      AssignsTail(fs, c);
      ApplyKeeps(row', fs[1..], params, c);
    }
  }

  /** With distinct columns, the i-th assignment's column ends up holding its parameter. */
  lemma {:induction false} ApplySets(row: Row, fs: seq<SetFragment>, params: seq<Value>, i: nat)
    requires SlotsWithin(fs, |params|)
    requires DistinctColumns(fs)
    requires i < |fs|
    ensures fs[i].column in ApplyAssignments(row, fs, params)
    ensures ApplyAssignments(row, fs, params)[fs[i].column] == params[fs[i].slot - 1]
    decreases |fs|
  {
    var row' := row[fs[0].column := params[fs[0].slot - 1]];
    var rest := fs[1..];
    assert ApplyAssignments(row, fs, params) == ApplyAssignments(row', rest, params);
    if i == 0 {
      forall j | 0 <= j < |rest| ensures rest[j].column != fs[0].column {
        assert rest[j] == fs[j + 1];
      }
      ApplyKeeps(row', rest, params, fs[0].column);
    } else {
      assert rest[i - 1] == fs[i];
      assert DistinctColumns(rest) by {
        forall a, b | 0 <= a < b < |rest| ensures rest[a].column != rest[b].column {
          assert rest[a] == fs[a + 1] && rest[b] == fs[b + 1];
        }
      }
      ApplySets(row', rest, params, i - 1);
    }
  }

  /** Running a SET list with distinct columns assigns each column its parameter and nothing else. */
  lemma ApplyAssignmentsEffect(row: Row, fs: seq<SetFragment>, params: seq<Value>)
    requires SlotsWithin(fs, |params|)
    requires DistinctColumns(fs)
    ensures Assigned(row, ApplyAssignments(row, fs, params), fs, params)
  {
    var after := ApplyAssignments(row, fs, params);
    forall i | 0 <= i < |fs|
      ensures fs[i].column in after && after[fs[i].column] == params[fs[i].slot - 1]
    {
      ApplySets(row, fs, params, i);
    }
    forall c
      ensures c in after <==> c in row || Assigns(fs, c)
    {
      ApplyColumns(row, fs, params, c);
    }
    forall c | c in row && !Assigns(fs, c)
      ensures after[c] == row[c]
    {
      ApplyKeeps(row, fs, params, c);
    }
  }

  /** The bounds of PostgreSQL's `integer` type, a 32-bit two's-complement integer. */
  const MinInteger: int := -0x8000_0000
  const MaxInteger: int := 0x7FFF_FFFF

  /** The white space PostgreSQL's integer input skips around a numeral: C's `isspace`. */
  predicate IsSqlSpace(c: char) {
    c == ' ' || c == '\t' || c == '\n' || c == '\r' || c == '\U{B}' || c == '\U{C}'
  }

  /** Text without its leading and trailing SQL white space. */
  function SqlTrim(s: string): (r: string)
    ensures |r| <= |s|
    ensures r == [] || (!IsSqlSpace(r[0]) && !IsSqlSpace(r[|r| - 1]))
    decreases |s|
  {
    if |s| > 0 && IsSqlSpace(s[0]) then SqlTrim(s[1..])
    else if |s| > 0 && IsSqlSpace(s[|s| - 1]) then SqlTrim(s[..|s| - 1])
    else s
  }

  /**
   * How PostgreSQL reads a bound value as an `integer`: a signed decimal
   * numeral between optional white space, within the type's range. None is
   * an input error ("invalid input syntax" or "out of range").
   */
  function IntegerInput(v: Value): (r: Option<int>)
    ensures r.Some? ==> MinInteger <= r.value <= MaxInteger
  {
    match v
    case Str(s) =>
      var n := ParseInteger(SqlTrim(s));
      if n.Some? && MinInteger <= n.value <= MaxInteger then n else None
    case Int(i) => if MinInteger <= i <= MaxInteger then Some(i) else None
    case _ => None
  }

  /** A numeral has no SQL white space to skip. */
  lemma SqlTrimDigits(s: string)
    requires |s| >= 1 && AllDigits(s)
    ensures SqlTrim(s) == s
  {
    assert IsDigit(s[0]) && IsDigit(s[|s| - 1]);
  }

  /** A printed natural number reads back as itself exactly when it fits the `integer` type. */
  lemma IntegerInputOfNumeral(n: nat)
    ensures IntegerInput(Str(NatToString(n))) == if n <= MaxInteger then Some(n) else None
  {
    SqlTrimDigits(NatToString(n));
    ParseIntegerOfNat(n);
  }

  /** What an UPDATE did: no row carried the key, or this row was rewritten. */
  datatype Executed<K> = NoRow | Updated(key: K, row: Row)

  /**
   * The database's reading of an UPDATE over the rows of one table: the SET
   * columns must exist and be distinct, the placeholders must match the
   * parameters, the key parameter must read as a key; the row under that key,
   * if any, gets the assignments.
   */
  function ExecuteUpdate<K>(schema: set<string>, rows: map<K, Row>, keyOf: Value -> Option<K>, st: UpdateStatement)
    : (r: Result<Executed<K>>)
    ensures r.Ok? && r.value.Updated? ==> r.value.key in rows
    ensures r.Ok? && r.value.Updated? && rows[r.value.key].Keys == schema ==> r.value.row.Keys == schema
    ensures r.Ok? && r.value.NoRow? ==> 1 <= st.keySlot <= |st.params| && keyOf(st.params[st.keySlot - 1]).Some? && keyOf(st.params[st.keySlot - 1]).value !in rows
  {
    if !(ColumnsIn(schema, st.assignments) && DistinctColumns(st.assignments)) then
      Err(StoreError("invalid SET list"))
    else if !(SlotsWithin(st.assignments, |st.params|) && 1 <= st.keySlot <= |st.params| && ParamsUsed(st)) then
      Err(StoreError("bind parameters do not match the placeholders"))
    else
      match keyOf(st.params[st.keySlot - 1])
      case None => Err(StoreError("invalid input syntax for the key column"))
      case Some(k) =>
        if k in rows then
          ApplyAssignmentsEffect(rows[k], st.assignments, st.params);
          Ok(Updated(k, ApplyAssignments(rows[k], st.assignments, st.params)))
        else Ok(NoRow)
  }

  /** The column names an update object's fields map to, in field order. */
  function TargetColumns(data: Obj, jsToSql: ColumnMap): set<string> {
    set i | 0 <= i < |data| :: ColumnName(jsToSql, data[i].0)
  }

  /** No two fields of the update map to the same column. */
  predicate DistinctTargets(data: Obj, jsToSql: ColumnMap) {
    forall i, j :: 0 <= i < j < |data| ==> ColumnName(jsToSql, data[i].0) != ColumnName(jsToSql, data[j].0)
  }

  /** The update's columns are existing, distinct columns of the table. */
  predicate ValidTargets(schema: set<string>, data: Obj, jsToSql: ColumnMap) {
    && (forall i :: 0 <= i < |data| ==> ColumnName(jsToSql, data[i].0) in schema)
    && DistinctTargets(data, jsToSql)
  }

  /** The statement built from a valid non-empty update passes every check of the interpreter. */
  lemma BuiltStatementAccepted(schema: set<string>, data: Obj, jsToSql: ColumnMap, table: string, keyColumn: string, key: Value)
    requires |data| > 0
    requires ValidTargets(schema, data, jsToSql)
    ensures var st := BuildUpdate(table, keyColumn, SqlForPartialUpdate(data, jsToSql).value, key);
      && ColumnsIn(schema, st.assignments) && DistinctColumns(st.assignments)
      && SlotsWithin(st.assignments, |st.params|) && 1 <= st.keySlot <= |st.params| && ParamsUsed(st)
  {
    var st := BuildUpdate(table, keyColumn, SqlForPartialUpdate(data, jsToSql).value, key);
    KeyBoundAfterValues(data, jsToSql, table, keyColumn, key);
    forall k: nat | 1 <= k <= |st.params|
      ensures Referenced(st, k)
    {
      if k != st.keySlot {
        assert st.assignments[k - 1].slot == k;
      }
    }
  }

  /** An accepted statement whose key parameter reads as a key updates the row under it, if any. */
  lemma ExecuteAccepted<K>(schema: set<string>, rows: map<K, Row>, keyOf: Value -> Option<K>, st: UpdateStatement)
    requires ColumnsIn(schema, st.assignments) && DistinctColumns(st.assignments)
    requires SlotsWithin(st.assignments, |st.params|) && 1 <= st.keySlot <= |st.params| && ParamsUsed(st)
    requires keyOf(st.params[st.keySlot - 1]).Some?
    ensures var id := keyOf(st.params[st.keySlot - 1]).value;
      ExecuteUpdate(schema, rows, keyOf, st)
        == if id in rows then Ok(Updated(id, ApplyAssignments(rows[id], st.assignments, st.params))) else Ok(NoRow)
  {
  }

  /** `after` is `before` with each field's column set to the field's value and every other column kept. */
  predicate PatchedRow(before: Row, after: Row, data: Obj, jsToSql: ColumnMap) {
    && (forall i :: 0 <= i < |data| ==>
          ColumnName(jsToSql, data[i].0) in after && after[ColumnName(jsToSql, data[i].0)] == data[i].1)
    && (forall c :: c in before && c !in TargetColumns(data, jsToSql) ==> c in after && after[c] == before[c])
    && (TargetColumns(data, jsToSql) <= before.Keys ==> after.Keys == before.Keys)
  }

  /** Such a list assigns exactly the update's target columns. */
  lemma BuiltAssigns(fs: seq<SetFragment>, data: Obj, jsToSql: ColumnMap, c: string)
    requires BuiltFrom(fs, data, jsToSql)
    ensures Assigns(fs, c) <==> c in TargetColumns(data, jsToSql)
  {
    if Assigns(fs, c) {
      var i :| 0 <= i < |fs| && fs[i].column == c;
    }
    if c in TargetColumns(data, jsToSql) {
      var i :| 0 <= i < |data| && ColumnName(jsToSql, data[i].0) == c;
      assert fs[i].column == c;
    }
  }

  /** A built SET list over distinct targets assigns distinct columns. */
  lemma BuiltDistinct(fs: seq<SetFragment>, data: Obj, jsToSql: ColumnMap)
    requires DistinctTargets(data, jsToSql)
    requires BuiltFrom(fs, data, jsToSql)
    ensures DistinctColumns(fs)
  {
    forall i, j | 0 <= i < j < |fs|
      ensures fs[i].column != fs[j].column
    {
      assert fs[i].column == ColumnName(jsToSql, data[i].0);
      assert fs[j].column == ColumnName(jsToSql, data[j].0);
    }
  }

  /** Each field's column ends up holding the field's value. */
  lemma PatchSetsFields(row: Row, data: Obj, jsToSql: ColumnMap, fs: seq<SetFragment>, params: seq<Value>)
    requires DistinctTargets(data, jsToSql)
    requires BuiltFrom(fs, data, jsToSql)
    requires |params| == |data| + 1 && BindsValues(params[..|data|], data)
    ensures SlotsWithin(fs, |params|)
    ensures forall i :: 0 <= i < |data| ==>
      ColumnName(jsToSql, data[i].0) in ApplyAssignments(row, fs, params)
      && ApplyAssignments(row, fs, params)[ColumnName(jsToSql, data[i].0)] == data[i].1
  {
    BuiltDistinct(fs, data, jsToSql);
    var after := ApplyAssignments(row, fs, params);
    ApplyAssignmentsEffect(row, fs, params);
    forall i | 0 <= i < |data|
      ensures ColumnName(jsToSql, data[i].0) in after && after[ColumnName(jsToSql, data[i].0)] == data[i].1
    {
      AssignedAt(row, after, fs, params, i);
      assert fs[i] == SetFragment(ColumnName(jsToSql, data[i].0), i + 1);
      assert params[..|data|][i] == data[i].1;
    }
  }

  /** One assignment's effect, read off the whole list's. */
  lemma AssignedAt(before: Row, after: Row, fs: seq<SetFragment>, params: seq<Value>, i: nat)
    requires SlotsWithin(fs, |params|)
    requires Assigned(before, after, fs, params)
    requires i < |fs|
    ensures fs[i].column in after && after[fs[i].column] == params[fs[i].slot - 1]
  {
  }

  /** Every column outside the update keeps its value, and no column appears or disappears. */
  lemma PatchKeepsOthers(row: Row, data: Obj, jsToSql: ColumnMap, fs: seq<SetFragment>, params: seq<Value>)
    requires DistinctTargets(data, jsToSql)
    requires BuiltFrom(fs, data, jsToSql)
    requires |params| == |data| + 1
    ensures SlotsWithin(fs, |params|)
    ensures forall c :: c in row && c !in TargetColumns(data, jsToSql) ==>
      c in ApplyAssignments(row, fs, params) && ApplyAssignments(row, fs, params)[c] == row[c]
    ensures TargetColumns(data, jsToSql) <= row.Keys ==> ApplyAssignments(row, fs, params).Keys == row.Keys
  {
    BuiltDistinct(fs, data, jsToSql);
    ApplyAssignmentsEffect(row, fs, params);
    forall c ensures Assigns(fs, c) <==> c in TargetColumns(data, jsToSql) {
      BuiltAssigns(fs, data, jsToSql, c);
    }
  }

  /** A SET list built from distinct targets, run with the field values first, patches the row. */
  lemma AssignmentsPatch(row: Row, data: Obj, jsToSql: ColumnMap, fs: seq<SetFragment>, params: seq<Value>)
    requires DistinctTargets(data, jsToSql)
    requires BuiltFrom(fs, data, jsToSql)
    requires |params| == |data| + 1 && BindsValues(params[..|data|], data)
    ensures SlotsWithin(fs, |params|)
    ensures PatchedRow(row, ApplyAssignments(row, fs, params), data, jsToSql)
  {
    PatchSetsFields(row, data, jsToSql, fs, params);
    PatchKeepsOthers(row, data, jsToSql, fs, params);
  }

  /**
   * Running the statement `update` builds changes exactly the row under the
   * key: each supplied field's column takes the field's value, every other
   * column keeps its value; a missing key is reported as no row.
   */
  lemma UpdateStatementEffect<K>(schema: set<string>, rows: map<K, Row>, keyOf: Value -> Option<K>,
                                 data: Obj, jsToSql: ColumnMap, table: string, keyColumn: string, key: Value)
    requires |data| > 0
    requires ValidTargets(schema, data, jsToSql)
    requires keyOf(key).Some?
    ensures ExecuteUpdate(schema, rows, keyOf, BuildUpdate(table, keyColumn, SqlForPartialUpdate(data, jsToSql).value, key))
      == if keyOf(key).value in rows
         then Ok(Updated(keyOf(key).value,
                         ApplyAssignments(rows[keyOf(key).value],
                                          SqlForPartialUpdate(data, jsToSql).value.fragments,
                                          SqlForPartialUpdate(data, jsToSql).value.values + [key])))
         else Ok(NoRow)
    ensures keyOf(key).value in rows ==>
      PatchedRow(rows[keyOf(key).value],
                 ApplyAssignments(rows[keyOf(key).value],
                                  SqlForPartialUpdate(data, jsToSql).value.fragments,
                                  SqlForPartialUpdate(data, jsToSql).value.values + [key]),
                 data, jsToSql)
  {
    var st := BuildUpdate(table, keyColumn, SqlForPartialUpdate(data, jsToSql).value, key);
    BuiltStatementAccepted(schema, data, jsToSql, table, keyColumn, key);
    KeyBoundAfterValues(data, jsToSql, table, keyColumn, key);
    ExecuteAccepted(schema, rows, keyOf, st);
    if keyOf(key).value in rows {
      var pu := SqlForPartialUpdate(data, jsToSql).value;
      assert (pu.values + [key])[..|data|] == pu.values;
      AssignmentsPatch(rows[keyOf(key).value], data, jsToSql, pu.fragments, pu.values + [key]);
    }
  }
}

=== FILE: sql.dfy ===
/**
 * helpers/sql.js: `sqlForPartialUpdate`, which turns the fields of a partial
 * update into a `"column"=$n, …` SET list and the values to bind to it.
 */
module SqlHelpers {
  import opened Results
  import opened Decimal
  import opened JsValues

  /** The `jsToSql` argument: field name to column name, for fields whose column name differs. */
  type ColumnMap = map<string, string>

  /** `jsToSql[key] || key`: a missing or empty mapping falls back to the field name itself. */
  function ColumnName(jsToSql: ColumnMap, key: string): string {
    if key in jsToSql && jsToSql[key] != "" then jsToSql[key] else key
  }

  /** One `"column"=$slot` assignment of a SET list. */
  datatype SetFragment = SetFragment(column: string, slot: nat)

  function RenderSet(f: SetFragment): string {
    "\"" + f.column + "\"=$" + NatToString(f.slot)
  }

  function RenderSets(fs: seq<SetFragment>): (r: seq<string>)
    ensures |r| == |fs|
    ensures forall i :: 0 <= i < |fs| ==> r[i] == RenderSet(fs[i])
  {
    seq(|fs|, i requires 0 <= i < |fs| => RenderSet(fs[i]))
  }

  /** The result of `sqlForPartialUpdate`, with the assignments kept alongside their text. */
  datatype PartialUpdate = PartialUpdate(fragments: seq<SetFragment>, setCols: string, values: seq<Value>)

  /**
   * `sqlForPartialUpdate(dataToUpdate, jsToSql)`: no fields is a BadRequest
   * "No data"; otherwise the i-th field (1-based) becomes `"column"=$i` and
   * its value becomes the i-th bound value.
   */
  function SqlForPartialUpdate(data: Obj, jsToSql: ColumnMap): (r: Result<PartialUpdate>)
    ensures |data| == 0 <==> r.Err?
    ensures r.Err? ==> r.error == BadRequest("No data")
    ensures r.Ok? ==> |r.value.fragments| == |data| && |r.value.values| == |data|
    ensures r.Ok? ==> forall i :: 0 <= i < |data| ==>
      r.value.fragments[i] == SetFragment(ColumnName(jsToSql, data[i].0), i + 1)
    ensures r.Ok? ==> forall i :: 0 <= i < |data| ==> r.value.values[i] == data[i].1
    ensures r.Ok? ==> r.value.setCols == Join(RenderSets(r.value.fragments), ", ")
  {
    if |data| == 0 then
      Err(BadRequest("No data"))
    else
      var fragments := seq(|data|, i requires 0 <= i < |data| => SetFragment(ColumnName(jsToSql, data[i].0), i + 1));
      var values := seq(|data|, i requires 0 <= i < |data| => data[i].1);
      Ok(PartialUpdate(fragments, Join(RenderSets(fragments), ", "), values))
  }

  /** The i-th assignment of a built SET list sets the i-th field's column to `$(i+1)`. */
  predicate BuiltFrom(fs: seq<SetFragment>, data: Obj, jsToSql: ColumnMap) {
    |fs| == |data| && forall i :: 0 <= i < |data| ==> fs[i] == SetFragment(ColumnName(jsToSql, data[i].0), i + 1)
  }

  /** The i-th bound value is the i-th field's value. */
  predicate BindsValues(values: seq<Value>, data: Obj) {
    |values| == |data| && forall i :: 0 <= i < |data| ==> values[i] == data[i].1
  }

  /**
   * Placeholder/value alignment of a SET list: every `$n` lies in
   * 1..|values|, no two fragments share a number, and the value bound to
   * `$n` is the value of the very field whose column the fragment names.
   */
  predicate SetListAligned(data: Obj, jsToSql: ColumnMap, pu: PartialUpdate) {
    && |pu.fragments| == |data|
    && (forall i :: 0 <= i < |data| ==>
          && pu.fragments[i].column == ColumnName(jsToSql, data[i].0)
          && 1 <= pu.fragments[i].slot <= |pu.values|
          && Lookup(data, data[i].0) == Some(pu.values[pu.fragments[i].slot - 1]))
    && (forall i, j :: 0 <= i < j < |pu.fragments| ==> pu.fragments[i].slot != pu.fragments[j].slot)
  }

  /** A SET list numbered by field position, bound to the fields' values in order, is aligned. */
  lemma PositionalListAligned(data: Obj, jsToSql: ColumnMap, pu: PartialUpdate)
    requires DistinctKeys(data)
    requires BuiltFrom(pu.fragments, data, jsToSql) && BindsValues(pu.values, data)
    ensures SetListAligned(data, jsToSql, pu)
  {
    forall i | 0 <= i < |data|
      ensures Lookup(data, data[i].0) == Some(pu.values[pu.fragments[i].slot - 1])
    {
      assert pu.fragments[i].slot == i + 1;
      LookupAt(data, i);
    }
    forall i, j | 0 <= i < j < |pu.fragments|
      ensures pu.fragments[i].slot != pu.fragments[j].slot
    {
      assert pu.fragments[i].slot == i + 1 && pu.fragments[j].slot == j + 1;
    }
  }

  /** The builder's SET list is numbered by field position and bound in order, so it is aligned. */
  lemma PartialUpdateAligned(data: Obj, jsToSql: ColumnMap)
    requires DistinctKeys(data)
    requires |data| > 0
    ensures BuiltFrom(SqlForPartialUpdate(data, jsToSql).value.fragments, data, jsToSql)
    ensures BindsValues(SqlForPartialUpdate(data, jsToSql).value.values, data)
    ensures SetListAligned(data, jsToSql, SqlForPartialUpdate(data, jsToSql).value)
  {
    PositionalListAligned(data, jsToSql, SqlForPartialUpdate(data, jsToSql).value);
  }

  /** An empty update object is rejected whatever the column mapping says. */
  lemma EmptyUpdateRejected(jsToSql: ColumnMap)
    ensures SqlForPartialUpdate([], jsToSql) == Err(BadRequest("No data"))
  {
  }

  /** Mapping entries for fields the update object does not carry have no effect. */
  lemma UnusedMappingIrrelevant(data: Obj, m1: ColumnMap, m2: ColumnMap)
    requires forall i :: 0 <= i < |data| ==> ColumnName(m1, data[i].0) == ColumnName(m2, data[i].0)
    ensures SqlForPartialUpdate(data, m1) == SqlForPartialUpdate(data, m2)
  {
    if |data| > 0 {
      var a := SqlForPartialUpdate(data, m1).value;
      var b := SqlForPartialUpdate(data, m2).value;
      assert a.fragments == b.fragments;
    }
  }

  /** A rendered assignment ends in `=$n` for its own slot n, and that numeral reads back as n. */
  lemma RenderedPlaceholder(f: SetFragment)
    ensures var text := RenderSet(f);
      var digits := NatToString(f.slot);
      && |text| >= |digits| + 2
      && text[|text| - |digits| - 2..] == "=$" + digits
      && ParseNat(text[|text| - |digits|..]) == Some(f.slot)
  {
    var digits := NatToString(f.slot);
    var text := RenderSet(f);
    assert text == ("\"" + f.column + "\"") + ("=$" + digits);
    assert text[|text| - |digits|..] == digits;
    ParseNatToString(f.slot);
  }

  /** The worked example's SET list: the mapped field first, the unmapped one second. */
  lemma ExampleFragments()
    ensures SqlForPartialUpdate([("firstName", Str("updateFirstName")), ("email", Str("updateEmail"))],
                                map["firstName" := "first_name", "lastName" := "last_name", "isAdmin" := "is_admin"]).value.fragments
      == [SetFragment("first_name", 1), SetFragment("email", 2)]
  {
    var jsToSql := map["firstName" := "first_name", "lastName" := "last_name", "isAdmin" := "is_admin"];
    assert ColumnName(jsToSql, "firstName") == "first_name";
    assert ColumnName(jsToSql, "email") == "email";
  }

  /** The worked example's assignments as text. */
  lemma ExampleSetText()
    ensures Join(RenderSets([SetFragment("first_name", 1), SetFragment("email", 2)]), ", ")
      == "\"first_name\"=$1, \"email\"=$2"
  {
    SmallNumerals();
    assert RenderSet(SetFragment("first_name", 1)) == "\"first_name\"=$1";
    assert RenderSet(SetFragment("email", 2)) == "\"email\"=$2";
    assert RenderSets([SetFragment("first_name", 1), SetFragment("email", 2)]) == ["\"first_name\"=$1", "\"email\"=$2"];
    JoinSmall("\"first_name\"=$1", "\"email\"=$2", ", ");
  }

  /** The worked example of the builder's documentation: a mapped and an unmapped field. */
  lemma PartialUpdateExample()
    ensures SqlForPartialUpdate([("firstName", Str("updateFirstName")), ("email", Str("updateEmail"))],
                                map["firstName" := "first_name", "lastName" := "last_name", "isAdmin" := "is_admin"])
      == Ok(PartialUpdate([SetFragment("first_name", 1), SetFragment("email", 2)],
                          "\"first_name\"=$1, \"email\"=$2",
                          [Str("updateFirstName"), Str("updateEmail")]))
  {
    var data := [("firstName", Str("updateFirstName")), ("email", Str("updateEmail"))];
    var jsToSql := map["firstName" := "first_name", "lastName" := "last_name", "isAdmin" := "is_admin"];
    var pu := SqlForPartialUpdate(data, jsToSql).value;
    ExampleFragments();
    ExampleSetText();
    assert pu.values == [Str("updateFirstName"), Str("updateEmail")];
  }

  /** A null value is bound as is, so an update can clear a nullable column. */
  lemma NullPassesThrough(data: Obj, jsToSql: ColumnMap, i: nat)
    requires i < |data| && data[i].1 == Null
    ensures SqlForPartialUpdate(data, jsToSql).value.values[i] == Null
  {
  }
}
